=== FILE: README.md ===
# NexGenGit pull-request review webhook, modelled in Dafny

NexGenGit is a GitHub App. GitHub sends it a webhook delivery for every
pull-request event. For an opened, synchronized or reopened pull request, the
handler does four things in order:

1. fetches the diff;
2. fills a review prompt with the title, repository, author and diff;
3. asks a chat-completion model for a review;
4. posts the review as a comment, authenticating as the app's installation.

This project models that pipeline (`pages/api/webhook.ts`) as pure functions.

Every call into the network or an SDK is an *oracle input* (`Webhook.Oracles`):

- the signature check and payload parse;
- the diff text;
- the completion reply or the value it throws;
- the installation lookup;
- the token exchange.

A delivery maps the request, the environment (`Webhook.Config`) and those
outcomes to an HTTP response and an *effect trace*. The trace lists, in order,
the steps the handler takes: read body, verify, fetch the diff, completion,
installation lookup, token exchange, post comment.

Modules:

- `Wrappers`: `Option`.
- `JsString`: JavaScript string semantics.
  - `length` counts UTF-16 code units.
  - `indexOf` finds the first occurrence.
  - `replace` with a string pattern replaces the first occurrence. The
    replacement is expanded as in GetSubstitution, section 22.1.3.19.1 of
    ECMA-262, so `$$`, `$&`, `` $` `` and `$'` are special.
- `Prompt`: the prompt template, written as its literal pieces, and its
  four chained replacements.
- `PrivateKey`: the `replace(/\\n/g, '\n')` normalisation of the private key.
- `Json`: `JSON.stringify(value, null, 2)` (section 25.5.2 of ECMA-262).
  String-literal decoding (section 7 of RFC 8259) inverts its quoting of
  strings, and a numeral reading inverts its writing of integers.
- `Webhook`:
  - the handler;
  - the `pull_request` event handler;
  - `generateAIReview`;
  - `postPRComment`;
  - the properties of whole deliveries.

Two behaviours of the code depart from what its own declarations promise,
and the model follows the code:

- **Missing completion content.** `generateAIReview` is declared to return
  `Promise<string>` (`pages/api/webhook.ts:81`). When the reply has no
  content, `JSON.stringify(undefined, null, 2)` (line 103) is `undefined`, so
  the function resolves to `undefined` after all, and the posted comment ends
  in the text `undefined` (`Webhook.GenerateReview`, `Webhook.PostedReviewText`).
- **Nullish throw from the completion call.** The catch block of
  `generateAIReview` (lines 107-110) exists to return the failure sentinel.
  When the thrown value is `null` or `undefined`, reading `err.response` on
  line 108 throws before that return. The event handler's catch (line 76)
  swallows the second throw, so no comment is posted (`Webhook.StepsTaken`).
  Any other thrown value gives the sentinel.

Two further behaviours are easy to misread, and the model keeps them exactly:

- **The diff guard counts UTF-16 code units.** Code points outside the Basic
  Multilingual Plane count twice, so the guard is not a character count
  (`JsString.Utf16LengthOfChar`, `JsString.Utf16LengthConcat`,
  `Webhook.ReviewableDiffLength`).
- **Empty strings count as missing.** The author falls back to `unknown` for
  an empty login as well as a missing one. The model name falls back to the
  default for an empty variable as well as an unset one. An empty app id or
  private key counts as missing.

## Model

| member | source | states |
|---|---|---|
| JsString.Utf16Length | pages/api/webhook.ts:55 | `diff.length` is at least the number of characters and at most twice it, and is zero exactly for the empty string |
| JsString.Utf16LengthConcat | pages/api/webhook.ts:55 | code units add up over concatenation |
| JsString.Utf16LengthOfChar | pages/api/webhook.ts:55 | a character outside the Basic Multilingual Plane takes two code units and any other character one |
| JsString.Utf16LengthOfBmp | pages/api/webhook.ts:55 | without astral-plane characters `length` equals the character count |
| JsString.IndexOf | pages/api/webhook.ts:60-64 | the position `replace` substitutes at is an occurrence with none before it; no position means the pattern does not occur |
| JsString.ReplaceByIndexOf | pages/api/webhook.ts:60-64 | the left-to-right scan of `replace` agrees with its definition through `indexOf`: the first occurrence is replaced by the expanded replacement, and a string without an occurrence is returned unchanged |
| JsString.ReplaceFirst | pages/api/webhook.ts:60-64 | the first occurrence, and only it, is replaced by a `$`-free replacement |
| JsString.Replace | pages/api/webhook.ts:60-64 | `s.replace(pat, rep)` with a string pattern: scans left to right and replaces the first occurrence only; `JsString.ReplaceByIndexOf` states what it computes |
| JsString.Expand | pages/api/webhook.ts:60-64 | the replacement as GetSubstitution expands it for a pattern without capture groups: `$$`, `$&`, `` $` `` and `$'` are special, every other `$` is literal; `JsString.ExpandDollarFree`, `JsString.ExpandEscaped`, `JsString.ExpandOtherDollar` and the `JsString.ReplaceWith…` lemmas state its properties |
| JsString.ExpandDollarFree | pages/api/webhook.ts:60-64 | a replacement without `$` is inserted verbatim |
| JsString.ExpandEscaped | pages/api/webhook.ts:60-64 | doubling every `$` of a value makes `replace` insert exactly that value, whatever the match. |
| JsString.ExpandOtherDollar | pages/api/webhook.ts:60-64 | a `$` not followed by `$`, `&`, `` ` `` or `'`, including a final `$`, `$1` and `$<`, is copied literally |
| JsString.ReplaceWithMatched | pages/api/webhook.ts:60-64 | `$&` inserts the matched text, so replacing with `$&` leaves the string as it was |
| JsString.ReplaceWithBefore | pages/api/webhook.ts:60-64 | `` $` `` inserts the text before the first occurrence in its place |
| JsString.ReplaceWithAfter | pages/api/webhook.ts:60-64 | `$'` inserts the text after the first occurrence in its place |
| Prompt.AuthorOrUnknown | pages/api/webhook.ts:63 | the author is the login when one is present and non-empty, and otherwise exactly `unknown` |
| Prompt.RenderPrompt | pages/api/webhook.ts:60-64 | the four chained first-occurrence replacements on the template, in source order; `Prompt.RenderSubstitutes` states their effect for inert values and `Prompt.RenderTitleCapturesRepo` pins the order |
| Prompt.FillAll | pages/api/webhook.ts:60-64 | four replacements in template order, with values that contain no later placeholder and no `$`, put each value in place of its placeholder |
| Prompt.RenderSubstitutes | pages/api/webhook.ts:14-39 | with inert values the rendered prompt is the template text with title, repository, author and diff in place of the four placeholders |
| Prompt.RenderContainsValues | pages/api/webhook.ts:60-64 | with inert values the prompt contains the title, repository full name, author and diff verbatim |
| Prompt.NextTokenCaptured | pages/api/webhook.ts:60-64 | a value equal to the next placeholder is itself replaced by the next value |
| Prompt.TitleTokenCapturesRepo | pages/api/webhook.ts:61-62 | a title reading `{REPO_NAME}` receives the repository name while the Repository line keeps its placeholder |
| Prompt.RenderTitleCapturesRepo | pages/api/webhook.ts:60-64 | for the title `{REPO_NAME}` the whole rendered prompt has the repository name on the title line, the Repository placeholder left in place, and author and diff in their own places |
| PrivateKey.Normalize | pages/api/webhook.ts:115 | `replace(/\\n/g, '\n')`: every backslash followed by `n` becomes a line break, scanning left to right without overlap; the `Normalize…` lemmas state its properties |
| PrivateKey.NormalizeLength | pages/api/webhook.ts:115 | normalisation shortens the key by one character per match, and there are at most half as many matches as characters |
| PrivateKey.NormalizeRemovesEscapes | pages/api/webhook.ts:115 | no backslash followed by `n` survives normalisation |
| PrivateKey.NormalizeFixesClean | pages/api/webhook.ts:115 | a key without escaped line breaks is unchanged |
| PrivateKey.NormalizeIdempotent | pages/api/webhook.ts:115 | normalising twice equals normalising once |
| PrivateKey.NormalizeEmpty | pages/api/webhook.ts:115-117 | the normalised key is empty exactly when the configured key is empty |
| PrivateKey.NormalizeUndoesEscape | pages/api/webhook.ts:115 | normalisation inverts writing each line break as backslash-`n`, for keys without a literal backslash-`n` |
| Json.Digits | pages/api/webhook.ts:103 | a natural number is written with decimal digits only, never empty, with a leading zero exactly for zero |
| Json.DigitsRoundTrip | pages/api/webhook.ts:103 | reading the digits back, most significant first, gives the number written |
| Json.DecimalText | pages/api/webhook.ts:103 | an integer is written as a non-empty numeral that starts with a minus sign exactly when the integer is negative |
| Json.DecimalTextRoundTrip | pages/api/webhook.ts:103 | the numeral written for an integer denotes that integer |
| Json.EscapeChar | pages/api/webhook.ts:103 | QuoteJSONString's escape of one character: quote and backslash escaped, the five short control escapes `\b`, `\t`, `\n`, `\f` and `\r`, `\u00xx` for the other control characters, the character itself otherwise; `Json.EscapeCharLayout` and `Json.UnquoteQuote` state its properties |
| Json.Quote | pages/api/webhook.ts:103 | a string value is written between double quotes with every character escaped; `Json.UnquoteQuote` states that decoding gives the string back |
| Json.Serialize | pages/api/webhook.ts:103 | serialisation yields `undefined` exactly for an undefined value |
| Json.SerializeDenotes | pages/api/webhook.ts:103 | `null` and booleans are written as their JSON literals, a number as a numeral that reads back as it, a string as a literal that decodes to it, and an array or object between brackets or braces |
| Json.SerializeElements | pages/api/webhook.ts:103 | an array writes one entry per element, in order: entry i is element i's text, and `null` for an undefined element |
| Json.SerializeMembers | pages/api/webhook.ts:103 | an object writes at most one entry per property |
| Json.MembersAllDefined | pages/api/webhook.ts:103 | when no property is `undefined`, an object writes one entry per property, in order: the quoted key, `: ` and the value's text |
| Json.Stringify | pages/api/webhook.ts:103 | `JSON.stringify(output, null, 2)` is `undefined` exactly when `output` is. The text of a number reads back as that number, and the text of a string decodes to that string |
| Json.UnquoteQuote | pages/api/webhook.ts:103 | decoding a quoted string literal gives the original string back |
| Json.SerializeLayout | pages/api/webhook.ts:103 | serialised text has no raw control character other than the line breaks of its layout |
| Webhook.ModelName | pages/api/webhook.ts:8 | the model is the non-empty override, and the default otherwise |
| Webhook.DiffReviewable | pages/api/webhook.ts:55 | the guard on line 55 lets the diff through: it is non-empty and has at least 20 UTF-16 code units; `Webhook.ReviewableDiffLength` relates it to characters |
| Webhook.ReviewableDiffLength | pages/api/webhook.ts:55 | a diff passing the guard has at least 10 characters, and at least 20 when none is astral |
| Webhook.GenerateReview | pages/api/webhook.ts:81-111 | string content is returned as is and other content as its JSON text. Missing content yields `undefined`. A non-nullish throw yields the failure sentinel. A nullish throw rejects |
| Webhook.FrameComment | pages/api/webhook.ts:148 | the body is as long as the header and review together |
| Webhook.Interpolate | pages/api/webhook.ts:148 | `${body}` in the template literal: a review text as it is, and the text `undefined` for an undefined review; `Webhook.FrameCommentRoundTrip` and `Webhook.PostedReviewText` state what is posted |
| Webhook.FrameCommentRoundTrip | pages/api/webhook.ts:148 | stripping the header from a posted body gives back exactly the review text |
| Webhook.Credentials | pages/api/webhook.ts:114-120 | credentials exist exactly when app id and key are both set and non-empty; the key used is the normalised one and holds no escaped line break |
| Webhook.PostPRComment | pages/api/webhook.ts:113-154 | without credentials nothing happens. Otherwise the steps are lookup, then exchange with the looked-up id, then the post with the exchanged token. A failed hop ends the chain, and when both hops succeed the comment is posted |
| Webhook.OnPullRequest | pages/api/webhook.ts:41-79 | the trace is empty exactly for actions other than opened, synchronize and reopened. It goes past the diff fetch exactly when the fetch succeeds and the diff passes the guard. It has at most five steps |
| Webhook.EventSteps | pages/api/webhook.ts:51-73 | the event handler fetches the diff first, then calls the model with the rendered prompt, then generates the review and posts it |
| Webhook.EventOrder | pages/api/webhook.ts:51-73 | each kind of step occurs at most once in the event handler's trace: fetch, completion, lookup, exchange, post, in that order |
| Webhook.ReviewAndPost | pages/api/webhook.ts:66-73 | a rejected review generation takes no credential step. A resolved review is passed to `postPRComment` with the event's owner, repository and pull-request number, and its steps follow in order |
| Webhook.Handle | pages/api/webhook.ts:156-181 | 404 exactly for a non-POST request, with no step taken. 500 exactly when verification fails. 200 otherwise. Every other trace starts with reading and verifying |
| Webhook.StatusIgnoresPipeline | pages/api/webhook.ts:167-181 | the response depends only on the method and the verification outcome, never on the diff, completion or credential hops |
| Webhook.Responses | pages/api/webhook.ts:157-181 | the three responses carry the texts `Not found`, `Webhook error` and `Webhook processed` |
| Webhook.CallOrder | pages/api/webhook.ts:41-181 | each kind of step happens at most once and always in the order read, verify, fetch, completion, lookup, exchange, post |
| Webhook.StepsTaken | pages/api/webhook.ts:44-153 | each step happens exactly when all earlier calls succeeded and the guards passed; a nullish throw from the completion stops the delivery before any credential step |
| Webhook.IgnoredAction | pages/api/webhook.ts:44-47 | an action other than opened, synchronize or reopened ends the delivery after verification |
| Webhook.DiffGuard | pages/api/webhook.ts:52-58 | a failed fetch or a diff that is empty or shorter than 20 code units ends the delivery after the fetch |
| Webhook.ChatCount | pages/api/webhook.ts:55-66 | a delivery makes exactly one completion call when it passes the diff guard and none otherwise |
| Webhook.ChatRequest | pages/api/webhook.ts:83-98 | the completion call carries the model, the fixed system instruction, the rendered prompt and a limit of 1500 tokens |
| Webhook.PromptCarriesValues | pages/api/webhook.ts:60-66 | with inert values the prompt sent holds title, repository, author and diff verbatim |
| Webhook.CredentialHops | pages/api/webhook.ts:114-148 | lookup and exchange use the app id and the normalised key. The exchange uses the looked-up installation. The post uses the exchanged token on the event's repository and pull-request number |
| Webhook.MissingCredentials | pages/api/webhook.ts:114-120 | without an app id or a non-empty key no lookup, exchange or post happens |
| Webhook.PostedStep | pages/api/webhook.ts:66-73 | a delivery that gets as far as posting has all seven steps, and the last one posts with the exchanged token, the event's owner, repository and pull-request number, and the header followed by the generated review |
| Webhook.PostedBody | pages/api/webhook.ts:66-73 | the posted body is the header followed by exactly the generated review |
| Webhook.PostedReviewText | pages/api/webhook.ts:100-110 | a non-nullish throw posts the header plus the sentinel. A string reply posts the header plus that string. Missing content posts the header plus `undefined` |
| Webhook.PostedJsonIsEscaped | pages/api/webhook.ts:102-104 | a non-string reply is posted as its JSON text, which contains no raw control character but layout line breaks |
| Webhook.RedeliveryPostsTwice | pages/api/webhook.ts:156-173 | the same delivery received twice posts two comments, since nothing deduplicates on the delivery id |

## Left out

- Signature verification. The HMAC-SHA256 check of `verifyAndReceive` lives in a library that is not part of this model. Its outcome, together with the payload parse, is the `Verdict` oracle.
- Network and SDK calls: the diff `fetch`, the chat completion, the Octokit requests and `createAppAuth` token minting. Each is an oracle outcome; JWT signing and RSA are not modelled.
- The construction of `createAppAuth` and the Octokit clients before the `try` in `postPRComment`. It is taken not to throw once both credentials are present.
- Payload shape. The payload is assumed to hold the fields the handler reads before its `try`. A malformed payload would make that code throw inside the library, which reports it to the handler as a verification failure.
- Request-body chunk concatenation and UTF-8 decoding. The body is given as a decoded string.
- Module-scope construction of the clients, and console logging.
- Concurrency between deliveries. Each delivery is independent, and the model treats them one at a time.
- Non-integer numbers in a completion reply. `JSON.stringify` is modelled for integer values only, since float formatting is not modelled.
- Numbers of magnitude 10^21 or more. `Number::toString` writes them in exponent form, such as `1e+21`, and `Json.DecimalText` writes every digit instead. Above 2^53 a JavaScript number holds only the nearest double, and its text is the shortest numeral that reads back as that double, not the digits of the integer. `JNumber` is unbounded, so the model's text is exact only for integers of magnitude at most 2^53.
- Duplicate object keys. A parsed object has distinct keys, but `JObject` does not require them, and the model writes every listed member.
- Lone UTF-16 surrogates. A Dafny string holds Unicode scalar values only, so a title or diff holding an unpaired surrogate, for example one decoded from a `\ud800` escape, cannot be represented.
- Surrogate pairs in `\u` escapes. `Json.UnquoteQuote` needs none, because the encoder never writes them.
- The dashboard, install, index and sign-in pages, the installation callback and `next.config.js`. They hold rendering, redirects and build wiring only. The key normalisation in `next.config.js` is the one `PrivateKey` models.
- Webhook.FrameComment: its contract gives only the length. The contents are stated by `Webhook.FrameCommentRoundTrip`.
- Json.SerializeMembers: its contract bounds the number of entries only. `Json.MembersAllDefined` gives the entries when no property is `undefined`; when some are, which entries remain follows from the definition and is not stated as a separate property.

=== FILE: json.dfy ===
/** `JSON.stringify(value, null, 2)` of ECMA-262 (section 25.5.2) over the
    values a parsed completion response can hold. The string-literal decoding
    of RFC 8259 (section 7) inverts the quoting of strings, and a numeral
    reading inverts the writing of integers. */
module Json {
  import opened Wrappers

  /** A JavaScript value as found in a parsed JSON response. `JUndefined` stands
      for a missing property. Numbers are integer-valued (see `DecimalText`); an
      object lists its own properties in enumeration order. */
  datatype JsValue =
    | JUndefined
    | JNull
    | JBool(b: bool)
    | JNumber(n: int)
    | JString(s: string)
    | JArray(items: seq<JsValue>)
    | JObject(members: seq<Member>)

  datatype Member = Member(key: string, value: JsValue)

  /** The indentation unit for a `space` argument of 2. */
  const Gap: string := "  "

  const Backspace: char := '\U{8}'
  const FormFeed: char := '\U{C}'

  /** `Number.prototype.toString` of an integer-valued number: its decimal
      numeral. This is the JavaScript text for magnitudes up to 2^53; larger
      numbers are not modelled exactly. */
  function DecimalText(n: int): (r: string)
    ensures |r| > 0 && (r[0] == '-' <==> n < 0)
  {
    if n < 0 then "-" + Digits(-n) else Digits(n)
  }

  /** The decimal digits of `n`, most significant first, without leading zeros. */
  function Digits(n: nat): (r: string)
    ensures forall i | 0 <= i < |r| :: '0' <= r[i] <= '9'
    ensures |r| > 0 && (r[0] == '0' <==> n == 0)
  {
    if n < 10 then [('0' as int + n) as char] else Digits(n / 10) + [('0' as int + n % 10) as char]
  }

  /** The number a string of decimal digits denotes, read independently of
      `Digits`: each further digit multiplies the value so far by ten. */
  function DigitsValue(s: string): int
    decreases |s|
  {
    if |s| == 0 then 0 else 10 * DigitsValue(s[..|s| - 1]) + (s[|s| - 1] as int - '0' as int)
  }

  /** The number a numeral of `DecimalText` denotes: an optional minus sign
      followed by digits. */
  function NumeralValue(s: string): int {
    if |s| > 0 && s[0] == '-' then -DigitsValue(s[1..]) else DigitsValue(s)
  }

  lemma {:induction false} DigitsRoundTrip(n: nat)
    ensures DigitsValue(Digits(n)) == n
  {
    if n >= 10 {
      DigitsRoundTrip(n / 10);
      var r := Digits(n);
      assert r[..|r| - 1] == Digits(n / 10);
    }
  }

  /** The numeral written for an integer denotes that integer. */
  lemma DecimalTextRoundTrip(n: int)
    ensures NumeralValue(DecimalText(n)) == n
  {
    if n < 0 {
      DigitsRoundTrip(-n);
      assert DecimalText(n)[1..] == Digits(-n);
    } else {
      DigitsRoundTrip(n);
    }
  }

  /** A lower-case hexadecimal digit. */
  function HexDigit(d: nat): (c: char)
    requires d < 16
  {
    if d < 10 then ('0' as int + d) as char else ('a' as int + d - 10) as char
  }

  /** The value of a hexadecimal digit of either case. */
  function HexValue(c: char): Option<nat> {
    if '0' <= c <= '9' then Some(c as int - '0' as int)
    else if 'a' <= c <= 'f' then Some(c as int - 'a' as int + 10)
    else if 'A' <= c <= 'F' then Some(c as int - 'A' as int + 10)
    else None
  }

  lemma HexDigitValue(d: nat)
    requires d < 16
    ensures HexValue(HexDigit(d)) == Some(d)
  {
  }

  /** How QuoteJSONString writes one code point: the short escapes of its
      table, `\u00xx` for the remaining control characters, the character
      itself otherwise. */
  function EscapeChar(c: char): string {
    if c == '"' then "\\\""
    else if c == '\\' then "\\\\"
    else if c == Backspace then "\\b"
    else if c == '\t' then "\\t"
    else if c == '\n' then "\\n"
    else if c == FormFeed then "\\f"
    else if c == '\r' then "\\r"
    else if c as int < 0x20 then "\\u00" + [HexDigit(c as int / 16), HexDigit(c as int % 16)]
    else [c]
  }

  /** The characters between the quotes of QuoteJSONString. */
  function EscapeBody(s: string): string
    decreases |s|
  {
    if |s| == 0 then "" else EscapeChar(s[0]) + EscapeBody(s[1..])
  }

  /** QuoteJSONString: the string wrapped in double quotes with escapes. */
  function Quote(s: string): string {
    "\"" + EscapeBody(s) + "\""
  }

  function Prepend(c: char, rest: Option<string>): Option<string> {
    match rest
    case None => None
    case Some(r) => Some([c] + r)
  }

  /** The character a two-character escape `\x` stands for, if any. */
  function ShortEscape(x: char): Option<char> {
    if x == '"' then Some('"')
    else if x == '\\' then Some('\\')
    else if x == '/' then Some('/')
    else if x == 'b' then Some(Backspace)
    else if x == 'f' then Some(FormFeed)
    else if x == 'n' then Some('\n')
    else if x == 'r' then Some('\r')
    else if x == 't' then Some('\t')
    else None
  }

  /** The code point of a `\uXXXX` escape at the start of `t`, when it names a
      scalar value (surrogate pairs are not decoded). */
  function UnicodeEscape(t: string): Option<char>
    requires |t| >= 6
  {
    var d := [HexValue(t[2]), HexValue(t[3]), HexValue(t[4]), HexValue(t[5])];
    if d[0].None? || d[1].None? || d[2].None? || d[3].None? then None
    else
      var n := 4096 * d[0].value + 256 * d[1].value + 16 * d[2].value + d[3].value;
      if 0xD800 <= n < 0xE000 then None else Some(n as char)
  }

  /** Decodes the characters between the quotes of a JSON string literal. */
  function UnescapeBody(t: string): Option<string>
    decreases |t|
  {
    if |t| == 0 then Some("")
    else if t[0] == '\\' then
      if |t| < 2 then None
      else if t[1] == 'u' then
        if |t| < 6 then None
        else match UnicodeEscape(t)
          case None => None
          case Some(c) => Prepend(c, UnescapeBody(t[6..]))
      else match ShortEscape(t[1])
        case None => None
        case Some(c) => Prepend(c, UnescapeBody(t[2..]))
    else if t[0] == '"' || t[0] as int < 0x20 then None
    else Prepend(t[0], UnescapeBody(t[1..]))
  }

  /** Decodes a JSON string literal. */
  function Unquote(q: string): Option<string> {
    if |q| >= 2 && q[0] == '"' && q[|q| - 1] == '"' then UnescapeBody(q[1..|q| - 1]) else None
  }

  /** Decoding one escaped character, followed by anything, gives that character back. */
  lemma UnescapeChar(c: char, rest: string)
    ensures UnescapeBody(EscapeChar(c) + rest) == Prepend(c, UnescapeBody(rest))
  {
    var t := EscapeChar(c) + rest;
    if c == '"' || c == '\\' || c == Backspace || c == '\t' || c == '\n' || c == FormFeed || c == '\r' {
      assert t[2..] == rest;
    } else if c as int < 0x20 {
      var n := c as int;
      HexDigitValue(n / 16);
      HexDigitValue(n % 16);
      assert t[2] == '0' && t[3] == '0';
      assert t[6..] == rest;
      assert UnicodeEscape(t) == Some(c);
    } else {
      assert t[1..] == rest;
    }
  }

  lemma {:induction false} UnescapeEscapeBody(s: string)
    ensures UnescapeBody(EscapeBody(s)) == Some(s)
  {
    if |s| > 0 {
      UnescapeEscapeBody(s[1..]);
      UnescapeChar(s[0], EscapeBody(s[1..]));
      assert s == [s[0]] + s[1..];
    }
  }

  /** Decoding a quoted string gives the original string back. */
  lemma UnquoteQuote(s: string)
    ensures Unquote(Quote(s)) == Some(s)
  {
    var q := Quote(s);
    assert q[1..|q| - 1] == EscapeBody(s);
    UnescapeEscapeBody(s);
  }

  /** `parts.join(sep)`. */
  function Join(parts: seq<string>, sep: string): string
    decreases |parts|
  {
    if |parts| == 0 then ""
    else if |parts| == 1 then parts[0]
    else parts[0] + sep + Join(parts[1..], sep)
  }

  /** SerializeJSONProperty with gap `Gap` at indentation `indent`; None is
      JavaScript's `undefined`. */
  function Serialize(v: JsValue, indent: string): (r: Option<string>)
    ensures r.None? <==> v.JUndefined?
    decreases v, 1
  {
    match v
    case JUndefined => None
    case JNull => Some("null")
    case JBool(b) => Some(if b then "true" else "false")
    case JNumber(n) => Some(DecimalText(n))
    case JString(s) => Some(Quote(s))
    case JArray(items) =>
      var inner := indent + Gap;
      var parts := SerializeElements(items, inner);
      Some(if |parts| == 0 then "[]" else "[\n" + inner + Join(parts, ",\n" + inner) + "\n" + indent + "]")
    case JObject(members) =>
      var inner := indent + Gap;
      var parts := SerializeMembers(members, inner);
      Some(if |parts| == 0 then "{}" else "{\n" + inner + Join(parts, ",\n" + inner) + "\n" + indent + "}")
  }

  /** SerializeJSONArray's element list: an `undefined` element is written `null`. */
  function SerializeElements(items: seq<JsValue>, indent: string): (parts: seq<string>)
    ensures |parts| == |items|
    ensures forall i | 0 <= i < |items| :: parts[i] == Serialize(items[i], indent).GetOr("null")
    decreases items, 0
  {
    if |items| == 0 then []
    else [Serialize(items[0], indent).GetOr("null")] + SerializeElements(items[1..], indent)
  }

  /** SerializeJSONObject's member list: a property whose value is `undefined`
      is left out. */
  function SerializeMembers(members: seq<Member>, indent: string): (parts: seq<string>)
    ensures |parts| <= |members|
    decreases members, 0
  {
    if |members| == 0 then []
    else
      var rest := SerializeMembers(members[1..], indent);
      match Serialize(members[0].value, indent)
      case None => rest
      case Some(sv) => [Quote(members[0].key) + ": " + sv] + rest
  }

  /** When no property is `undefined`, an object writes one entry per
      property, in order: the quoted key, a colon and a space, and the value's
      text. */
  lemma {:induction false} MembersAllDefined(members: seq<Member>, indent: string)
    requires forall i | 0 <= i < |members| :: !members[i].value.JUndefined?
    ensures var parts := SerializeMembers(members, indent);
      |parts| == |members|
      && forall i | 0 <= i < |parts| :: parts[i] == Quote(members[i].key) + ": " + Serialize(members[i].value, indent).value
    decreases |members|
  {
    if |members| > 0 {
      MembersAllDefined(members[1..], indent);
    }
  }

  /** `JSON.stringify(v, null, 2)`. */
  function Stringify(v: JsValue): (r: Option<string>)
    ensures r.None? <==> v.JUndefined?
    ensures v.JNumber? ==> NumeralValue(r.value) == v.n
    ensures v.JString? ==> Unquote(r.value) == Some(v.s)
  {
    SerializeDenotes(v, "");
    Serialize(v, "")
  }

  /** What the text of each kind of value denotes: the JSON literals for
      `null` and booleans, a numeral that reads back as the number, a string
      literal that decodes to the string, and brackets or braces around the
      entries of an array or object. */
  lemma SerializeDenotes(v: JsValue, indent: string)
    ensures v.JNull? ==> Serialize(v, indent) == Some("null")
    ensures v.JBool? ==> Serialize(v, indent) == Some(if v.b then "true" else "false")
    ensures v.JNumber? ==> NumeralValue(Serialize(v, indent).value) == v.n
    ensures v.JString? ==> Unquote(Serialize(v, indent).value) == Some(v.s)
    ensures v.JArray? ==> var t := Serialize(v, indent).value; |t| >= 2 && t[0] == '[' && t[|t| - 1] == ']'
    ensures v.JObject? ==> var t := Serialize(v, indent).value; |t| >= 2 && t[0] == '{' && t[|t| - 1] == '}'
  {
    match v
    case JNumber(n) => DecimalTextRoundTrip(n);
    case JString(str) => UnquoteQuote(str);
    case _ =>
  }

  /** No control character other than the line breaks of the layout. */
  predicate LayoutOnly(s: string) {
    forall i | 0 <= i < |s| :: s[i] == '\n' || s[i] as int >= 0x20
  }

  lemma LayoutConcat(a: string, b: string)
    requires LayoutOnly(a) && LayoutOnly(b)
    ensures LayoutOnly(a + b)
  {
  }

  /** An escaped character is written with printable characters only. */
  lemma EscapeCharLayout(c: char)
    ensures forall i | 0 <= i < |EscapeChar(c)| :: EscapeChar(c)[i] as int >= 0x20
  {
    if c as int < 0x20 && c != Backspace && c != '\t' && c != '\n' && c != FormFeed && c != '\r' {
      var e := EscapeChar(c);
      assert e == "\\u00" + [HexDigit(c as int / 16), HexDigit(c as int % 16)];
      assert e[4] as int >= 0x30 && e[5] as int >= 0x30;
    }
  }

  lemma {:induction false} EscapeBodyLayout(s: string)
    ensures LayoutOnly(EscapeBody(s))
    ensures '\n' !in EscapeBody(s)
  {
    if |s| > 0 {
      EscapeBodyLayout(s[1..]);
      EscapeCharLayout(s[0]);
      var e, rest := EscapeChar(s[0]), EscapeBody(s[1..]);
      assert EscapeBody(s) == e + rest;
      assert LayoutOnly(e) && '\n' !in e;
      LayoutConcat(e, rest);
    }
  }

  /** A quoted string has no raw control character at all. */
  lemma QuoteLayout(s: string)
    ensures LayoutOnly(Quote(s))
    ensures '\n' !in Quote(s)
  {
    EscapeBodyLayout(s);
  }

  lemma {:induction false} JoinLayout(parts: seq<string>, sep: string)
    requires forall i | 0 <= i < |parts| :: LayoutOnly(parts[i])
    requires LayoutOnly(sep)
    ensures LayoutOnly(Join(parts, sep))
  {
    if |parts| > 1 {
      JoinLayout(parts[1..], sep);
      LayoutConcat(parts[0], sep);
      LayoutConcat(parts[0] + sep, Join(parts[1..], sep));
    }
  }

  /** Serialized text contains no control character other than the line breaks
      of the indentation layout; in particular every string inside is escaped. */
  lemma {:induction false} SerializeLayout(v: JsValue, indent: string)
    requires LayoutOnly(indent)
    ensures Serialize(v, indent).Some? ==> LayoutOnly(Serialize(v, indent).value)
    decreases v, 1
  {
    match v
    case JUndefined =>
    case JNull =>
    case JBool(b) =>
    case JNumber(n) =>
    case JString(s) => QuoteLayout(s);
    case JArray(items) =>
      var inner := indent + Gap;
      ElementsLayout(items, inner);
      JoinLayout(SerializeElements(items, inner), ",\n" + inner);
    case JObject(members) =>
      var inner := indent + Gap;
      MembersLayout(members, inner);
      JoinLayout(SerializeMembers(members, inner), ",\n" + inner);
  }

  lemma {:induction false} ElementsLayout(items: seq<JsValue>, indent: string)
    requires LayoutOnly(indent)
    ensures forall i | 0 <= i < |SerializeElements(items, indent)| :: LayoutOnly(SerializeElements(items, indent)[i])
    decreases items, 0
  {
    if |items| > 0 {
      SerializeLayout(items[0], indent);
      ElementsLayout(items[1..], indent);
    }
  }

  lemma {:induction false} MembersLayout(members: seq<Member>, indent: string)
    requires LayoutOnly(indent)
    ensures forall i | 0 <= i < |SerializeMembers(members, indent)| :: LayoutOnly(SerializeMembers(members, indent)[i])
    decreases members, 0
  {
    if |members| > 0 {
      SerializeLayout(members[0].value, indent);
      MembersLayout(members[1..], indent);
      QuoteLayout(members[0].key);
    }
  }
}

=== FILE: jsstring.dfy ===
/** The JavaScript string operations the webhook relies on, over Dafny strings.

    A Dafny `string` is a sequence of Unicode scalar values, while a JavaScript
    string is a sequence of UTF-16 code units. For well-formed strings the two
    agree on everything used here except `length`, which `Utf16Length` models
    explicitly; searching for an ASCII pattern finds the same occurrences in
    both views. A lone surrogate code unit has no Dafny counterpart. */
module JsString {
  import opened Wrappers

  /** The value of `s.length` in JavaScript: code points outside the Basic
      Multilingual Plane take two UTF-16 code units. */
  function Utf16Length(s: string): (n: nat)
    ensures |s| <= n <= 2 * |s|
    ensures |s| == 0 <==> n == 0
  {
    if |s| == 0 then 0
    else (if s[0] as int >= 0x10000 then 2 else 1) + Utf16Length(s[1..])
  }

  /** A string without astral-plane characters has as many code units as characters. */
  lemma {:induction false} Utf16LengthOfBmp(s: string)
    requires forall i :: 0 <= i < |s| ==> s[i] as int < 0x10000
    ensures Utf16Length(s) == |s|
  {
    if |s| > 0 {
      assert forall i :: 0 <= i < |s[1..]| ==> s[1..][i] == s[i + 1];
      Utf16LengthOfBmp(s[1..]);
    }
  }

  /** Code units add up over concatenation. */
  lemma {:induction false} Utf16LengthConcat(a: string, b: string)
    ensures Utf16Length(a + b) == Utf16Length(a) + Utf16Length(b)
    decreases |a|
  {
    if |a| > 0 {
      assert (a + b)[1..] == a[1..] + b;
      Utf16LengthConcat(a[1..], b);
    } else {
      assert a + b == b;
    }
  }

  /** One character takes two code units exactly when it lies outside the
      Basic Multilingual Plane, and one otherwise. */
  lemma Utf16LengthOfChar(c: char)
    ensures Utf16Length([c]) == if c as int >= 0x10000 then 2 else 1
  {
    assert [c][1..] == [];
  }

  /** `pat` occurs in `s` starting at index `i`. */
  predicate MatchAt(s: string, pat: string, i: nat) {
    i + |pat| <= |s| && s[i..i + |pat|] == pat
  }

  /** `pat` occurs somewhere in `s`. */
  predicate Contains(s: string, pat: string) {
    exists i: nat | i <= |s| :: MatchAt(s, pat, i)
  }

  /** No occurrence of `pat` in `s` starts before index `n`. */
  predicate NoMatchBefore(s: string, pat: string, n: nat) {
    forall i: nat | i < n :: !MatchAt(s, pat, i)
  }

  /** The first occurrence of `pat` in `s` at or after index `k`, given that
      there is none before `k`. */
  function IndexFrom(s: string, pat: string, k: nat): (r: Option<nat>)
    requires NoMatchBefore(s, pat, k)
    ensures r.Some? ==> k <= r.value && MatchAt(s, pat, r.value) && NoMatchBefore(s, pat, r.value)
    ensures r.None? ==> !Contains(s, pat)
    decreases |s| - k
  {
    if k + |pat| > |s| then None
    else if s[k..k + |pat|] == pat then Some(k)
    else IndexFrom(s, pat, k + 1)
  }

  /** `s.indexOf(pat)`: the first occurrence of `pat`, or None for -1. */
  function IndexOf(s: string, pat: string): (r: Option<nat>)
    ensures r.Some? ==> MatchAt(s, pat, r.value) && NoMatchBefore(s, pat, r.value)
    ensures r.None? ==> !Contains(s, pat)
  {
    IndexFrom(s, pat, 0)
  }

  /** GetSubstitution of ECMA-262 (section 22.1.3.19.1) for a string pattern,
      which has no capture groups: `$$` inserts `$`, `$&` the matched text,
      `` $` `` the text before the match and `$'` the text after it. Every other
      `$` (including `$1` and `$<`) is copied literally. */
  function Expand(rep: string, matched: string, before: string, after: string): string
    decreases |rep|
  {
    if |rep| == 0 then ""
    else if rep[0] == '$' && |rep| >= 2 && rep[1] == '$' then "$" + Expand(rep[2..], matched, before, after)
    else if rep[0] == '$' && |rep| >= 2 && rep[1] == '&' then matched + Expand(rep[2..], matched, before, after)
    else if rep[0] == '$' && |rep| >= 2 && rep[1] == '`' then before + Expand(rep[2..], matched, before, after)
    else if rep[0] == '$' && |rep| >= 2 && rep[1] == '\'' then after + Expand(rep[2..], matched, before, after)
    else [rep[0]] + Expand(rep[1..], matched, before, after)
  }

  /** A replacement without `$` is inserted verbatim. */
  lemma {:induction false} ExpandDollarFree(rep: string, matched: string, before: string, after: string)
    requires '$' !in rep
    ensures Expand(rep, matched, before, after) == rep
  {
    if |rep| > 0 {
      assert '$' !in rep[1..];
      ExpandDollarFree(rep[1..], matched, before, after);
      assert rep == [rep[0]] + rep[1..];
    }
  }

  /** Without capture groups, a `$` not followed by `$`, `&`, `` ` `` or `'`
      (a final `$`, `$1`, `$<` and the like) is copied literally. */
  lemma ExpandOtherDollar(r: string, matched: string, before: string, after: string)
    requires |r| == 0 || r[0] !in "$&`'"
    ensures Expand("$" + r, matched, before, after) == "$" + Expand(r, matched, before, after)
  {
    assert ("$" + r)[1..] == r;
  }

  /** `v` with every `$` doubled: the usual way to make `replace` insert a
      value verbatim. */
  function EscapeDollars(v: string): (r: string)
    ensures |r| >= |v|
    decreases |v|
  {
    if |v| == 0 then ""
    else if v[0] == '$' then "$$" + EscapeDollars(v[1..])
    else [v[0]] + EscapeDollars(v[1..])
  }

  /** `$$` collapses to a single `$` and nothing else is special in an
      escaped value, so expansion undoes `EscapeDollars` whatever the match. */
  lemma {:induction false} ExpandEscaped(v: string, matched: string, before: string, after: string)
    ensures Expand(EscapeDollars(v), matched, before, after) == v
    decreases |v|
  {
    if |v| > 0 {
      ExpandEscaped(v[1..], matched, before, after);
      var e := EscapeDollars(v);
      if v[0] == '$' {
        assert e[2..] == EscapeDollars(v[1..]);
      } else {
        assert e[1..] == EscapeDollars(v[1..]);
      }
      assert v == [v[0]] + v[1..];
    }
  }

  /** The scan behind `replace`: the first occurrence of `pat` at or after
      index `k` is replaced, and `s` is returned unchanged when there is none. */
  function ReplaceFrom(s: string, pat: string, rep: string, k: nat): string
    decreases |s| - k
  {
    if k + |pat| > |s| then s
    else if s[k..k + |pat|] == pat then s[..k] + Expand(rep, pat, s[..k], s[k + |pat|..]) + s[k + |pat|..]
    else ReplaceFrom(s, pat, rep, k + 1)
  }

  /** `s.replace(pat, rep)` with a string `pat`: only the first occurrence is
      replaced, and `rep` is expanded by GetSubstitution. */
  function Replace(s: string, pat: string, rep: string): string {
    ReplaceFrom(s, pat, rep, 0)
  }

  lemma {:induction false} ReplaceFromFound(s: string, pat: string, rep: string, k: nat, i: nat)
    requires k <= i && MatchAt(s, pat, i) && NoMatchBefore(s, pat, i)
    ensures ReplaceFrom(s, pat, rep, k) == s[..i] + Expand(rep, pat, s[..i], s[i + |pat|..]) + s[i + |pat|..]
    decreases i - k
  {
    if k < i {
      assert !MatchAt(s, pat, k);
      ReplaceFromFound(s, pat, rep, k + 1, i);
    }
  }

  lemma {:induction false} ReplaceFromAbsent(s: string, pat: string, rep: string, k: nat)
    requires !Contains(s, pat)
    ensures ReplaceFrom(s, pat, rep, k) == s
    decreases |s| - k
  {
    if k + |pat| <= |s| {
      assert !MatchAt(s, pat, k);
      ReplaceFromAbsent(s, pat, rep, k + 1);
    }
  }

  /** `replace` agrees with its definition through `indexOf`: the first
      occurrence is replaced by the expanded replacement, and a string without
      an occurrence is returned unchanged. */
  lemma ReplaceByIndexOf(s: string, pat: string, rep: string)
    ensures IndexOf(s, pat).None? ==> Replace(s, pat, rep) == s
    ensures IndexOf(s, pat).Some? ==>
              var i := IndexOf(s, pat).value;
              Replace(s, pat, rep) == s[..i] + Expand(rep, pat, s[..i], s[i + |pat|..]) + s[i + |pat|..]
  {
    match IndexOf(s, pat)
    case None => ReplaceFromAbsent(s, pat, rep, 0);
    case Some(i) => ReplaceFromFound(s, pat, rep, 0, i);
  }

  /** `$&` inserts the matched text, so replacing the first occurrence by
      `$&` leaves the string as it was. */
  lemma ReplaceWithMatched(s: string, pat: string)
    ensures Replace(s, pat, "$&") == s
  {
    ReplaceByIndexOf(s, pat, "$&");
    if IndexOf(s, pat).Some? {
      var i := IndexOf(s, pat).value;
      assert s[i..i + |pat|] == pat;
      assert s == s[..i] + s[i..i + |pat|] + s[i + |pat|..];
    }
  }

  /** `` $` `` inserts the text before the first occurrence. */
  lemma ReplaceWithBefore(s: string, pat: string)
    ensures IndexOf(s, pat).Some? ==>
              var i := IndexOf(s, pat).value;
              Replace(s, pat, "$`") == s[..i] + s[..i] + s[i + |pat|..]
  {
    ReplaceByIndexOf(s, pat, "$`");
  }

  /** `$'` inserts the text after the first occurrence. */
  lemma ReplaceWithAfter(s: string, pat: string)
    ensures IndexOf(s, pat).Some? ==>
              var i := IndexOf(s, pat).value;
              Replace(s, pat, "$'") == s[..i] + s[i + |pat|..] + s[i + |pat|..]
  {
    ReplaceByIndexOf(s, pat, "$'");
  }

  /** Replacing in `pre + pat + post`, where `pat` does not start earlier than
      `pre` ends, substitutes exactly that occurrence. */
  lemma ReplaceFirst(pre: string, pat: string, post: string, rep: string)
    requires NoMatchBefore(pre + pat + post, pat, |pre|)
    requires '$' !in rep
    ensures Replace(pre + pat + post, pat, rep) == pre + rep + post
  {
    var s := pre + pat + post;
    assert s[|pre|..|pre| + |pat|] == pat;
    ReplaceFromFound(s, pat, rep, 0, |pre|);
    assert s[..|pre|] == pre;
    assert s[|pre| + |pat|..] == post;
    ExpandDollarFree(rep, pat, pre, post);
  }

  /** A stretch `t` of fixed text without `{` cannot start an occurrence of a
      pattern that begins with `{`. */
  lemma TextKeepsNoMatch(s: string, pat: string, a: string, t: string, r: string)
    requires s == a + t + r
    requires |pat| > 0 && pat[0] == '{'
    requires '{' !in t
    requires NoMatchBefore(s, pat, |a|)
    ensures NoMatchBefore(s, pat, |a| + |t|)
  {
    forall i: nat | i < |a| + |t|
      ensures !MatchAt(s, pat, i)
    {
      if |a| <= i && i + |pat| <= |s| {
        assert s[i] == t[i - |a|];
        assert s[i..i + |pat|][0] == s[i] != pat[0];
      }
    }
  }

  /** An inserted value `v` free of `pat`, followed by a character that `pat`
      does not contain, cannot start an occurrence of `pat`. */
  lemma ValueKeepsNoMatch(s: string, pat: string, a: string, v: string, r: string)
    requires s == a + v + r
    requires |r| > 0 && r[0] !in pat
    requires !Contains(v, pat)
    requires NoMatchBefore(s, pat, |a|)
    ensures NoMatchBefore(s, pat, |a| + |v|)
  {
    forall i: nat | i < |a| + |v|
      ensures !MatchAt(s, pat, i)
    {
      if |a| <= i && i + |pat| <= |s| {
        var j := i - |a|;
        if j + |pat| <= |v| {
          assert v[j..j + |pat|] == s[i..i + |pat|];
          assert !MatchAt(v, pat, j);
        } else {
          var k := |v| - j;
          assert s[i + k] == r[0];
          assert s[i..i + |pat|][k] == r[0] != pat[k];
        }
      }
    }
  }

  /** A string contains every piece it is concatenated from. */
  lemma ContainsPiece(a: string, v: string, b: string)
    ensures Contains(a + v + b, v)
  {
    var s := a + v + b;
    assert s[|a|..|a| + |v|] == v;
    assert MatchAt(s, v, |a|);
  }
}

=== FILE: privatekey.dfy ===
/** Normalisation of the application private key read from the environment:
    `replace(/\\n/g, '\n')` turns every escaped line break (a backslash followed
    by `n`) into a real line break, scanning left to right without overlap. */
module PrivateKey {

  /** `s` holds a backslash immediately followed by `n` at index `i`. */
  predicate EscapedBreakAt(s: string, i: int) {
    0 <= i && i + 1 < |s| && s[i] == '\\' && s[i + 1] == 'n'
  }

  /** `s` holds no escaped line break anywhere. */
  predicate NoEscapedBreak(s: string) {
    forall i | 0 <= i < |s| :: !EscapedBreakAt(s, i)
  }

  /** The global regular-expression replacement. */
  function Normalize(s: string): string
    decreases |s|
  {
    if |s| >= 2 && s[0] == '\\' && s[1] == 'n' then "\n" + Normalize(s[2..])
    else if |s| == 0 then ""
    else [s[0]] + Normalize(s[1..])
  }

  /** The number of matches the global replacement finds. */
  function MatchCount(s: string): nat
    decreases |s|
  {
    if |s| >= 2 && s[0] == '\\' && s[1] == 'n' then 1 + MatchCount(s[2..])
    else if |s| == 0 then 0
    else MatchCount(s[1..])
  }

  /** Every match shortens the key by exactly one character. */
  lemma {:induction false} NormalizeLength(s: string)
    ensures |Normalize(s)| == |s| - MatchCount(s)
    ensures MatchCount(s) <= |s| / 2
  {
    if |s| >= 2 && s[0] == '\\' && s[1] == 'n' {
      NormalizeLength(s[2..]);
    } else if |s| > 0 {
      NormalizeLength(s[1..]);
    }
  }

  /** The normalised key starts with `n` only where the input does. */
  lemma {:induction false} NormalizeHeadN(s: string)
    ensures |Normalize(s)| > 0 && Normalize(s)[0] == 'n' ==> |s| > 0 && s[0] == 'n'
  {
    if |s| >= 2 && s[0] == '\\' && s[1] == 'n' {
    } else if |s| > 0 {
    }
  }

  /** No escaped line break survives normalisation. */
  lemma {:induction false} NormalizeRemovesEscapes(s: string)
    ensures NoEscapedBreak(Normalize(s))
  {
    if |s| >= 2 && s[0] == '\\' && s[1] == 'n' {
      NormalizeRemovesEscapes(s[2..]);
      var r := Normalize(s);
      assert r == "\n" + Normalize(s[2..]);
      forall i | 0 <= i < |r|
        ensures !EscapedBreakAt(r, i)
      {
        if i > 0 {
          assert !EscapedBreakAt(Normalize(s[2..]), i - 1);
        }
      }
    } else if |s| > 0 {
      var t := s[1..];
      NormalizeRemovesEscapes(t);
      var r := Normalize(s);
      assert r == [s[0]] + Normalize(t);
      forall i | 0 <= i < |r|
        ensures !EscapedBreakAt(r, i)
      {
        if i > 0 {
          assert !EscapedBreakAt(Normalize(t), i - 1);
        } else if s[0] == '\\' && |r| > 1 {
          // The next output character comes from `t`, which does not open with `n`.
          NormalizeHeadN(t);
          assert !(|t| > 0 && t[0] == 'n');
        }
      }
    }
  }

  /** A key without escaped line breaks is left as it is. */
  lemma {:induction false} NormalizeFixesClean(s: string)
    requires NoEscapedBreak(s)
    ensures Normalize(s) == s
  {
    if |s| > 0 {
      assert !EscapedBreakAt(s, 0);
      var t := s[1..];
      assert forall i | 0 <= i < |t| :: EscapedBreakAt(t, i) == EscapedBreakAt(s, i + 1);
      NormalizeFixesClean(t);
      assert s == [s[0]] + t;
    }
  }

  /** Normalising twice gives the same key as normalising once. */
  lemma NormalizeIdempotent(s: string)
    ensures Normalize(Normalize(s)) == Normalize(s)
  {
    NormalizeRemovesEscapes(s);
    NormalizeFixesClean(Normalize(s));
  }

  /** The normalised key is empty exactly when the configured key is empty, so
      the emptiness test behind `!privateKey` sees the configured value. */
  lemma NormalizeEmpty(s: string)
    ensures Normalize(s) == "" <==> s == ""
  {
    NormalizeLength(s);
  }

  /** How a PEM key is written into a one-line environment variable: each line
      break becomes a backslash followed by `n`. */
  function Escape(s: string): string
    decreases |s|
  {
    if |s| == 0 then ""
    else if s[0] == '\n' then "\\n" + Escape(s[1..])
    else [s[0]] + Escape(s[1..])
  }

  /** An escaped string opens with `n` only where the original does. */
  lemma {:induction false} EscapeHead(s: string)
    ensures |Escape(s)| > 0 ==> |s| > 0
    ensures |Escape(s)| > 0 && Escape(s)[0] == 'n' ==> s[0] == 'n'
  {
  }

  /** Normalisation undoes that escaping for any key that did not already
      contain a backslash followed by `n`. */
  lemma {:induction false} NormalizeUndoesEscape(s: string)
    requires NoEscapedBreak(s)
    ensures Normalize(Escape(s)) == s
  {
    if |s| > 0 {
      var t := s[1..];
      assert forall i | 0 <= i < |t| :: EscapedBreakAt(t, i) == EscapedBreakAt(s, i + 1);
      NormalizeUndoesEscape(t);
      if s[0] == '\n' {
        assert Escape(s) == "\\n" + Escape(t);
        assert (Escape(s))[2..] == Escape(t);
      } else {
        assert Escape(s) == [s[0]] + Escape(t);
        if s[0] == '\\' {
          assert !EscapedBreakAt(s, 0);
          EscapeHead(t);
        }
        assert (Escape(s))[1..] == Escape(t);
      }
      assert s == [s[0]] + t;
    }
  }
}

=== FILE: prompt.dfy ===
/** Rendering of the review prompt: the fixed template of the webhook and the
    four chained `String.prototype.replace` calls that fill it in. */
module Prompt {
  import opened Wrappers
  import opened JsString

  const TitleToken: string := "{PR_TITLE}"
  const RepoToken: string := "{REPO_NAME}"
  const AuthorToken: string := "{PR_AUTHOR}"
  const DiffToken: string := "{PR_DIFF}"

  /** The fixed text between the placeholders, in template order. */
  const Head: string :=
    "\n"
    + "As a senior software engineer "
    + "with 15+ years of experience, "
    + "review this pull request thoroughly.\n"
    + "\n"
    + "**Pull Request Title**: "
  const AfterTitle: string := "\n**Repository**: "
  const AfterRepo: string := "\n**Author**: "
  const AfterAuthor: string :=
    "\n"
    + "\n"
    + "**Review Guidelines**:\n"
    + "1. Code Quality\n"
    + "2. Logic Errors\n"
    + "3. Security\n"
    + "4. Performance\n"
    + "5. Best Practices\n"
    + "6. Readability\n"
    + "7. Testing\n"
    + "\n"
    + "**Code Changes**:\n"
    + "```diff\n"
  const Tail: string :=
    "\n"
    + "```\n"
    + "\n"
    + "**Provide your review** (Markdown formatted):\n"
    + "- Group feedback by category (Critical, Suggestions, Nitpicks)\n"
    + "- Use code examples\n"
    + "- Be concise but thorough\n"

  /** The template literal, written as its fixed text with each placeholder
      appearing once, in the order title, repository, author, diff. */
  const PromptTemplate: string :=
    Head + TitleToken + AfterTitle + RepoToken + AfterRepo + AuthorToken + AfterAuthor + DiffToken + Tail

  /** `pull_request.user?.login || 'unknown'`: an absent user or login, and an
      empty login, all fall back to `unknown`. */
  function AuthorOrUnknown(login: Option<string>): (a: string)
    ensures a != ""
    ensures login.Some? && login.value != "" ==> a == login.value
    ensures a != "unknown" ==> login == Some(a)
  {
    if login.Some? && login.value != "" then login.value else "unknown"
  }

  /** The prompt sent to the model: four chained first-occurrence replacements
      of title, repository full name, author and diff. */
  function RenderPrompt(title: string, repoFullName: string, author: Option<string>, diff: string): string
  {
    Replace(
      Replace(
        Replace(
          Replace(PromptTemplate, TitleToken, title),
          RepoToken, repoFullName),
        AuthorToken, AuthorOrUnknown(author)),
      DiffToken, diff)
  }

  /** A value that `replace` inserts verbatim and that later replacements cannot
      mistake for a placeholder. */
  ghost predicate Inert(v: string) {
    && '$' !in v
    && !Contains(v, TitleToken)
    && !Contains(v, RepoToken)
    && !Contains(v, AuthorToken)
    && !Contains(v, DiffToken)
  }

  /** A placeholder token: it opens with `{` and has no line break. */
  ghost predicate IsToken(p: string) {
    |p| > 0 && p[0] == '{' && '\n' !in p
  }

  /** Fixed text that ends an inserted value: it opens with a line break and
      contains no `{`. */
  ghost predicate IsSeparator(t: string) {
    |t| > 0 && t[0] == '\n' && '{' !in t
  }

  /** A value followed by separator text cannot start an occurrence of a token
      the value does not contain. */
  lemma ValueThenSeparator(s: string, p: string, x: string, v: string, t: string, rest: string)
    requires s == x + v + t + rest
    requires IsToken(p) && IsSeparator(t) && !Contains(v, p)
    requires NoMatchBefore(s, p, |x|)
    ensures NoMatchBefore(s, p, |x + v + t|)
  {
    assert s == x + v + (t + rest);
    ValueKeepsNoMatch(s, p, x, v, t + rest);
    assert s == (x + v) + t + rest;
    TextKeepsNoMatch(s, p, x + v, t, rest);
  }

  /** Fixed text without `{` cannot start an occurrence of a token. */
  lemma NoMatchInHead(h: string, p: string, rest: string)
    requires '{' !in h && IsToken(p)
    ensures NoMatchBefore(h + rest, p, |h|)
  {
    assert h + rest == "" + h + rest;
    TextKeepsNoMatch(h + rest, p, "", h, rest);
  }

  /** No occurrence of a token starts before the end of `h + v1 + t1`. */
  lemma NoMatchAfterOne(h: string, v1: string, t1: string, p: string, rest: string)
    requires '{' !in h && IsToken(p) && IsSeparator(t1) && !Contains(v1, p)
    ensures NoMatchBefore(h + v1 + t1 + rest, p, |h + v1 + t1|)
  {
    NoMatchInHead(h, p, v1 + t1 + rest);
    AppendThree(h, v1, t1, rest);
    ValueThenSeparator(h + v1 + t1 + rest, p, h, v1, t1, rest);
  }

  /** No occurrence of a token starts before the end of `h + v1 + t1 + v2 + t2`. */
  lemma NoMatchAfterTwo(h: string, v1: string, t1: string, v2: string, t2: string, p: string, rest: string)
    requires '{' !in h && IsToken(p) && IsSeparator(t1) && IsSeparator(t2)
    requires !Contains(v1, p) && !Contains(v2, p)
    ensures NoMatchBefore(h + v1 + t1 + v2 + t2 + rest, p, |h + v1 + t1 + v2 + t2|)
  {
    var s := h + v1 + t1 + v2 + t2 + rest;
    NoMatchAfterOne(h, v1, t1, p, v2 + t2 + rest);
    AppendThree(h + v1 + t1, v2, t2, rest);
    ValueThenSeparator(s, p, h + v1 + t1, v2, t2, rest);
  }

  /** No occurrence of a token starts before the end of the third separator. */
  lemma NoMatchAfterThree(h: string, v1: string, t1: string, v2: string, t2: string, v3: string, t3: string,
                          p: string, rest: string)
    requires '{' !in h && IsToken(p) && IsSeparator(t1) && IsSeparator(t2) && IsSeparator(t3)
    requires !Contains(v1, p) && !Contains(v2, p) && !Contains(v3, p)
    ensures NoMatchBefore(h + v1 + t1 + v2 + t2 + v3 + t3 + rest, p, |h + v1 + t1 + v2 + t2 + v3 + t3|)
  {
    var s := h + v1 + t1 + v2 + t2 + v3 + t3 + rest;
    NoMatchAfterTwo(h, v1, t1, v2, t2, p, v3 + t3 + rest);
    AppendThree(h + v1 + t1 + v2 + t2, v3, t3, rest);
    ValueThenSeparator(s, p, h + v1 + t1 + v2 + t2, v3, t3, rest);
  }

  lemma Assoc(a: string, b: string, c: string)
    ensures a + (b + c) == a + b + c
  {
  }

  /** Appending a left-nested concatenation of three pieces. */
  lemma AppendThree(x: string, a1: string, a2: string, a3: string)
    ensures x + (a1 + a2 + a3) == x + a1 + a2 + a3
  {
    Assoc(x, a1 + a2, a3);
    Assoc(x, a1, a2);
  }

  /** Appending a left-nested concatenation of five pieces. */
  lemma AppendFive(x: string, a1: string, a2: string, a3: string, a4: string, a5: string)
    ensures x + (a1 + a2 + a3 + a4 + a5) == x + a1 + a2 + a3 + a4 + a5
  {
    Assoc(x, a1 + a2 + a3 + a4, a5);
    Assoc(x, a1 + a2 + a3, a4);
    AppendThree(x, a1, a2, a3);
  }

  /** Appending a left-nested concatenation of seven pieces. */
  lemma AppendSeven(x: string, a1: string, a2: string, a3: string, a4: string, a5: string, a6: string, a7: string)
    ensures x + (a1 + a2 + a3 + a4 + a5 + a6 + a7) == x + a1 + a2 + a3 + a4 + a5 + a6 + a7
  {
    Assoc(x, a1 + a2 + a3 + a4 + a5 + a6, a7);
    Assoc(x, a1 + a2 + a3 + a4 + a5, a6);
    AppendFive(x, a1, a2, a3, a4, a5);
  }

  /** The four replacements, stated over arbitrary fixed texts `h`, `t1`, `t2`,
      `t3`, `tl`, tokens `p1` to `p4` and values `v1` to `v4`. */
  lemma FillFirst(h: string, p1: string, t1: string, p2: string, t2: string, p3: string, t3: string, p4: string, tl: string,
                  v1: string)
    requires '{' !in h && IsToken(p1) && '$' !in v1
    ensures Replace(h + p1 + t1 + p2 + t2 + p3 + t3 + p4 + tl, p1, v1)
         == h + v1 + t1 + p2 + t2 + p3 + t3 + p4 + tl
  {
    var rest := t1 + p2 + t2 + p3 + t3 + p4 + tl;
    NoMatchInHead(h, p1, p1 + rest);
    Assoc(h, p1, rest);
    AppendSeven(h + p1, t1, p2, t2, p3, t3, p4, tl);
    ReplaceFirst(h, p1, rest, v1);
    AppendSeven(h + v1, t1, p2, t2, p3, t3, p4, tl);
  }

  lemma FillSecond(h: string, v1: string, t1: string, p2: string, t2: string, p3: string, t3: string, p4: string, tl: string,
                   v2: string)
    requires '{' !in h && IsToken(p2) && IsSeparator(t1) && '$' !in v2
    requires !Contains(v1, p2)
    ensures Replace(h + v1 + t1 + p2 + t2 + p3 + t3 + p4 + tl, p2, v2)
         == h + v1 + t1 + v2 + t2 + p3 + t3 + p4 + tl
  {
    var rest := t2 + p3 + t3 + p4 + tl;
    var pre := h + v1 + t1;
    NoMatchAfterOne(h, v1, t1, p2, p2 + rest);
    Assoc(pre, p2, rest);
    AppendFive(pre + p2, t2, p3, t3, p4, tl);
    ReplaceFirst(pre, p2, rest, v2);
    AppendFive(pre + v2, t2, p3, t3, p4, tl);
  }

  lemma FillThird(h: string, v1: string, t1: string, v2: string, t2: string, p3: string, t3: string, p4: string, tl: string,
                  v3: string)
    requires '{' !in h && IsToken(p3) && IsSeparator(t1) && IsSeparator(t2) && '$' !in v3
    requires !Contains(v1, p3) && !Contains(v2, p3)
    ensures Replace(h + v1 + t1 + v2 + t2 + p3 + t3 + p4 + tl, p3, v3)
         == h + v1 + t1 + v2 + t2 + v3 + t3 + p4 + tl
  {
    var rest := t3 + p4 + tl;
    var pre := h + v1 + t1 + v2 + t2;
    NoMatchAfterTwo(h, v1, t1, v2, t2, p3, p3 + rest);
    Assoc(pre, p3, rest);
    AppendThree(pre + p3, t3, p4, tl);
    ReplaceFirst(pre, p3, rest, v3);
    AppendThree(pre + v3, t3, p4, tl);
  }

  lemma FillFourth(h: string, v1: string, t1: string, v2: string, t2: string, v3: string, t3: string, p4: string, tl: string,
                   v4: string)
    requires '{' !in h && IsToken(p4) && IsSeparator(t1) && IsSeparator(t2) && IsSeparator(t3) && '$' !in v4
    requires !Contains(v1, p4) && !Contains(v2, p4) && !Contains(v3, p4)
    ensures Replace(h + v1 + t1 + v2 + t2 + v3 + t3 + p4 + tl, p4, v4)
         == h + v1 + t1 + v2 + t2 + v3 + t3 + v4 + tl
  {
    var pre := h + v1 + t1 + v2 + t2 + v3 + t3;
    NoMatchAfterThree(h, v1, t1, v2, t2, v3, t3, p4, p4 + tl);
    Assoc(pre, p4, tl);
    ReplaceFirst(pre, p4, tl, v4);
  }

  /** The four chained replacements fill a template of this shape in place. */
  lemma FillAll(h: string, p1: string, t1: string, p2: string, t2: string, p3: string, t3: string, p4: string, tl: string,
                v1: string, v2: string, v3: string, v4: string)
    requires '{' !in h && IsSeparator(t1) && IsSeparator(t2) && IsSeparator(t3)
    requires IsToken(p1) && IsToken(p2) && IsToken(p3) && IsToken(p4)
    requires '$' !in v1 && '$' !in v2 && '$' !in v3 && '$' !in v4
    requires !Contains(v1, p2) && !Contains(v1, p3) && !Contains(v1, p4)
    requires !Contains(v2, p3) && !Contains(v2, p4) && !Contains(v3, p4)
    ensures Replace(Replace(Replace(Replace(h + p1 + t1 + p2 + t2 + p3 + t3 + p4 + tl, p1, v1), p2, v2), p3, v3), p4, v4)
         == h + v1 + t1 + v2 + t2 + v3 + t3 + v4 + tl
  {
    FillFirst(h, p1, t1, p2, t2, p3, t3, p4, tl, v1);
    FillSecond(h, v1, t1, p2, t2, p3, t3, p4, tl, v2);
    FillThird(h, v1, t1, v2, t2, p3, t3, p4, tl, v3);
    FillFourth(h, v1, t1, v2, t2, v3, t3, p4, tl, v4);
  }

  /** The template's fixed text has the shape the fill lemmas need: no `{`
      outside the placeholders, and every value is followed by a line break. */
  lemma HeadShape()
    ensures '{' !in Head
  {
    var a, b := "As a senior software engineer ", "with 15+ years of experience, ";
    var c, d := "review this pull request thoroughly.\n", "**Pull Request Title**: ";
    assert '{' !in a && '{' !in b;
    assert '{' !in c && '{' !in d;
    assert Head == "\n" + a + b + c + "\n" + d;
  }

  lemma AfterTitleShape()
    ensures IsSeparator(AfterTitle)
  {
  }

  lemma AfterRepoShape()
    ensures IsSeparator(AfterRepo)
  {
  }

  lemma AfterAuthorShape()
    ensures IsSeparator(AfterAuthor)
  {
  }

  lemma TokenShapes()
    ensures IsToken(TitleToken) && IsToken(RepoToken) && IsToken(AuthorToken) && IsToken(DiffToken)
  {
  }

  /** With inert values (the diff, replaced last, need only be free of `$`), the
      rendered prompt is the template with each placeholder replaced by its value. */
  lemma RenderSubstitutes(title: string, repoFullName: string, author: Option<string>, diff: string)
    requires Inert(title) && Inert(repoFullName) && Inert(AuthorOrUnknown(author))
    requires '$' !in diff
    ensures RenderPrompt(title, repoFullName, author, diff)
         == Head + title + AfterTitle + repoFullName + AfterRepo + AuthorOrUnknown(author) + AfterAuthor + diff + Tail
  {
    HeadShape();
    AfterTitleShape();
    AfterRepoShape();
    AfterAuthorShape();
    TokenShapes();
    FillAll(Head, TitleToken, AfterTitle, RepoToken, AfterRepo, AuthorToken, AfterAuthor, DiffToken, Tail,
            title, repoFullName, AuthorOrUnknown(author), diff);
  }

  /** Every value of a filled template occurs in it. */
  lemma ContainsEachValue(h: string, v1: string, t1: string, v2: string, t2: string, v3: string, t3: string,
                          v4: string, tl: string)
    ensures var s := h + v1 + t1 + v2 + t2 + v3 + t3 + v4 + tl;
            Contains(s, v1) && Contains(s, v2) && Contains(s, v3) && Contains(s, v4)
  {
    var s := h + v1 + t1 + v2 + t2 + v3 + t3 + v4 + tl;
    assert s == h + v1 + (t1 + v2 + t2 + v3 + t3 + v4 + tl);
    ContainsPiece(h, v1, t1 + v2 + t2 + v3 + t3 + v4 + tl);
    assert s == (h + v1 + t1) + v2 + (t2 + v3 + t3 + v4 + tl);
    ContainsPiece(h + v1 + t1, v2, t2 + v3 + t3 + v4 + tl);
    assert s == (h + v1 + t1 + v2 + t2) + v3 + (t3 + v4 + tl);
    ContainsPiece(h + v1 + t1 + v2 + t2, v3, t3 + v4 + tl);
    ContainsPiece(h + v1 + t1 + v2 + t2 + v3 + t3, v4, tl);
  }

  /** Each value appears verbatim in a prompt rendered from inert values. */
  lemma RenderContainsValues(title: string, repoFullName: string, author: Option<string>, diff: string)
    requires Inert(title) && Inert(repoFullName) && Inert(AuthorOrUnknown(author))
    requires '$' !in diff
    ensures Contains(RenderPrompt(title, repoFullName, author, diff), title)
    ensures Contains(RenderPrompt(title, repoFullName, author, diff), repoFullName)
    ensures Contains(RenderPrompt(title, repoFullName, author, diff), AuthorOrUnknown(author))
    ensures Contains(RenderPrompt(title, repoFullName, author, diff), diff)
  {
    RenderSubstitutes(title, repoFullName, author, diff);
    ContainsEachValue(Head, title, AfterTitle, repoFullName, AfterRepo, AuthorOrUnknown(author), AfterAuthor, diff, Tail);
  }

  /** A value equal to the next token is taken for that token by the next replacement. */
  lemma NextTokenCaptured(h: string, p1: string, p2: string, rest: string, v2: string)
    requires '{' !in h && IsToken(p1) && IsToken(p2) && '$' !in p2 && '$' !in v2
    ensures Replace(Replace(h + p1 + rest, p1, p2), p2, v2) == h + v2 + rest
  {
    TextKeepsNoMatch(h + p1 + rest, p1, "", h, p1 + rest);
    ReplaceFirst(h, p1, rest, p2);
    TextKeepsNoMatch(h + p2 + rest, p2, "", h, p2 + rest);
    ReplaceFirst(h, p2, rest, v2);
  }

  /** Only the first occurrence is replaced: a title that itself reads
      `{REPO_NAME}` receives the repository name, and the Repository line keeps
      its placeholder. */
  lemma TitleTokenCapturesRepo(repoFullName: string)
    requires '$' !in repoFullName
    ensures Replace(Replace(PromptTemplate, TitleToken, RepoToken), RepoToken, repoFullName)
         == Head + repoFullName + (AfterTitle + RepoToken + AfterRepo + AuthorToken + AfterAuthor + DiffToken + Tail)
  {
    HeadShape();
    TokenShapes();
    var rest := AfterTitle + RepoToken + AfterRepo + AuthorToken + AfterAuthor + DiffToken + Tail;
    AppendSeven(Head + TitleToken, AfterTitle, RepoToken, AfterRepo, AuthorToken, AfterAuthor, DiffToken, Tail);
    NextTokenCaptured(Head, TitleToken, RepoToken, rest, repoFullName);
  }

  /** The repository placeholder shares no occurrence with the author or diff
      placeholder. */
  lemma RepoTokenShape()
    ensures !Contains(RepoToken, AuthorToken) && !Contains(RepoToken, DiffToken)
  {
    forall i: nat | i <= |RepoToken|
      ensures !MatchAt(RepoToken, AuthorToken, i) && !MatchAt(RepoToken, DiffToken, i)
    {
      if i == 0 {
        assert RepoToken[0..|AuthorToken|][1] != AuthorToken[1];
        assert RepoToken[0..|DiffToken|][1] != DiffToken[1];
      } else if i + |DiffToken| <= |RepoToken| {
        assert RepoToken[i..i + |DiffToken|][0] != DiffToken[0];
      }
    }
  }

  /** The replacements run in source order: with the title `{REPO_NAME}` the
      repository name lands on the title line, the Repository line keeps its
      placeholder, and author and diff still fill their own places. */
  lemma RenderTitleCapturesRepo(repoFullName: string, author: Option<string>, diff: string)
    requires Inert(repoFullName) && Inert(AuthorOrUnknown(author)) && '$' !in diff
    ensures RenderPrompt(RepoToken, repoFullName, author, diff)
         == Head + repoFullName + AfterTitle + RepoToken + AfterRepo + AuthorOrUnknown(author) + AfterAuthor + diff + Tail
  {
    HeadShape();
    AfterTitleShape();
    AfterRepoShape();
    AfterAuthorShape();
    TokenShapes();
    RepoTokenShape();
    TitleTokenCapturesRepo(repoFullName);
    AppendSeven(Head + repoFullName, AfterTitle, RepoToken, AfterRepo, AuthorToken, AfterAuthor, DiffToken, Tail);
    var a := AuthorOrUnknown(author);
    FillThird(Head, repoFullName, AfterTitle, RepoToken, AfterRepo, AuthorToken, AfterAuthor, DiffToken, Tail, a);
    FillFourth(Head, repoFullName, AfterTitle, RepoToken, AfterRepo, a, AfterAuthor, DiffToken, Tail, diff);
  }
}

=== FILE: webhook.dfy ===
/** The pull-request webhook: the HTTP handler, the `pull_request` event
    handler, review generation and comment posting.

    Every network or SDK step is an oracle input (`Oracles`), so one delivery
    is a pure function from the request, the configuration and the oracle
    outcomes to an HTTP response and the ordered trace of steps taken. */
module Webhook {
  import opened Wrappers
  import opened JsString
  import opened Prompt
  import opened PrivateKey
  import opened Json

  // ---------------------------------------------------------------- inputs

  /** An inbound HTTP request: method, the three GitHub headers and the raw body. */
  datatype Request = Request(httpMethod: string, deliveryId: string, eventName: string, signature: string, body: string)

  datatype Repository = Repository(name: string, fullName: string, ownerLogin: string)

  /** `authorLogin` is None when `user` or its `login` is absent. */
  datatype PullRequest = PullRequest(number: nat, title: string, authorLogin: Option<string>, diffUrl: string)

  /** The parsed payload of a `pull_request` event. */
  datatype PullRequestEvent = PullRequestEvent(action: string, pullRequest: PullRequest, repository: Repository)

  /** Process-wide environment settings; None is an unset variable. */
  datatype Config = Config(appId: Option<string>, privateKey: Option<string>, modelOverride: Option<string>)

  // --------------------------------------------------------------- oracles

  /** The outcome of `verifyAndReceive`'s signature check and payload parse;
      `Rejected` covers both a rejection and a throw. */
  datatype Verdict = Verified(payload: PullRequestEvent) | Rejected

  /** The diff request: the decoded body text, or a rejected `fetch`/`text()`. */
  datatype DiffFetch = DiffText(text: string) | FetchFailed

  /** The chat completion: `resp.choices?.[0]?.message?.content` when the
      request resolves, or the value it throws. `nullishError` says whether
      that value is `null` or `undefined`. */
  datatype Completion = Replied(content: JsValue) | Threw(nullishError: bool)

  /** `GET /repos/{owner}/{repo}/installation`. */
  datatype InstallationLookup = Installation(id: nat) | LookupFailed

  /** The installation-token exchange. */
  datatype TokenExchange = Token(token: string) | ExchangeFailed

  datatype Oracles = Oracles(
    verdict: Verdict,
    diff: DiffFetch,
    completion: Completion,
    lookup: InstallationLookup,
    exchange: TokenExchange)

  // --------------------------------------------------------------- outputs

  /** One observable step of a delivery, in the order it happens. */
  datatype Step =
    | ReadBody
    | VerifySignature(deliveryId: string, eventName: string, signature: string, payload: string)
    | FetchDiff(url: string)
    | CompleteChat(model: string, system: string, prompt: string, maxTokens: nat)
    | LookupInstallation(appId: string, privateKey: string, owner: string, repo: string)
    | ExchangeToken(tokenAppId: string, tokenPrivateKey: string, installationId: nat)
    | PostComment(bearer: string, commentOwner: string, commentRepo: string, issueNumber: nat, commentBody: string)

  datatype Response = Response(status: nat, text: string)

  datatype Outcome = Outcome(response: Response, trace: seq<Step>)

  // ------------------------------------------------------------- constants

  const ReviewedActions: set<string> := {"opened", "synchronize", "reopened"}

  /** Diffs shorter than this many UTF-16 code units are not reviewed. */
  const MinDiffLength: nat := 20

  const DefaultModel: string := "meta-llama/Llama-3-70B-Instruct-Turbo-Free"

  const SystemInstruction: string :=
    "You are a senior software engineer AI assistant. Provide a markdown-formatted PR review."

  const MaxTokens: nat := 1500

  const CommentHeader: string := "## \U{1F916} NexGenGit AI Review\n\n"

  const FailureSentinel: string := "\U{26A0}\U{FE0F} Failed to generate AI review."

  // ------------------------------------------------------------ operations

  /** `process.env.OPENAI_MODEL || default`. */
  function ModelName(cfg: Config): (m: string)
    ensures m != ""
    ensures m != DefaultModel ==> cfg.modelOverride == Some(m)
    ensures cfg.modelOverride.Some? && cfg.modelOverride.value != "" ==> m == cfg.modelOverride.value
    ensures cfg.modelOverride.None? || cfg.modelOverride == Some("") ==> m == DefaultModel
  {
    if cfg.modelOverride.Some? && cfg.modelOverride.value != "" then cfg.modelOverride.value else DefaultModel
  }

  /** `!diff || diff.length < 20` fails. */
  predicate DiffReviewable(diff: string) {
    diff != "" && Utf16Length(diff) >= MinDiffLength
  }

  /** A reviewable diff has at least ten characters, and at least twenty when
      none of them lies outside the Basic Multilingual Plane. */
  lemma ReviewableDiffLength(diff: string)
    requires DiffReviewable(diff)
    ensures |diff| >= MinDiffLength / 2
    ensures (forall i :: 0 <= i < |diff| ==> diff[i] as int < 0x10000) ==> |diff| >= MinDiffLength
  {
    if forall i :: 0 <= i < |diff| ==> diff[i] as int < 0x10000 {
      Utf16LengthOfBmp(diff);
    }
  }

  /** The JavaScript value `generateAIReview` resolves to. */
  datatype Review = ReviewText(text: string) | ReviewUndefined

  /** `generateAIReview` resolves to a review, or rejects. */
  datatype ReviewOutcome = Resolved(review: Review) | ReviewRejected

  /** `generateAIReview`: string content is returned as is, other content as
      `JSON.stringify(content, null, 2)` (which is `undefined` for missing
      content), and a thrown error as the failure sentinel. When the thrown
      value is nullish the catch block itself throws on `err.response`. */
  function GenerateReview(c: Completion): (r: ReviewOutcome)
    ensures r.ReviewRejected? <==> c == Threw(true)
    ensures r == Resolved(ReviewUndefined) <==> c == Replied(JUndefined)
    ensures c == Threw(false) ==> r == Resolved(ReviewText(FailureSentinel))
    ensures c.Replied? && c.content.JString? ==> r == Resolved(ReviewText(c.content.s))
    ensures c.Replied? && !c.content.JString? && !c.content.JUndefined? ==>
              r == Resolved(ReviewText(Stringify(c.content).value))
  {
    match c
    case Threw(nullish) => if nullish then ReviewRejected else Resolved(ReviewText(FailureSentinel))
    case Replied(content) =>
      if content.JString? then Resolved(ReviewText(content.s))
      else match Stringify(content)
        case None => Resolved(ReviewUndefined)
        case Some(t) => Resolved(ReviewText(t))
  }

  /** `${body}` in a template literal. */
  function Interpolate(review: Review): string {
    match review
    case ReviewText(t) => t
    case ReviewUndefined => "undefined"
  }

  /** The comment body: the attribution header followed by the review. */
  function FrameComment(review: Review): (body: string)
    ensures |body| == |CommentHeader| + |Interpolate(review)|
  {
    CommentHeader + Interpolate(review)
  }

  /** Recovers the review text from a posted comment body. */
  function ReviewOfComment(body: string): Option<string> {
    if |body| >= |CommentHeader| && body[..|CommentHeader|] == CommentHeader
    then Some(body[|CommentHeader|..])
    else None
  }

  /** Every posted body carries the header, and what follows it is exactly the
      review text. */
  lemma FrameCommentRoundTrip(review: Review)
    ensures ReviewOfComment(FrameComment(review)) == Some(Interpolate(review))
  {
    var body := FrameComment(review);
    assert body[..|CommentHeader|] == CommentHeader;
    assert body[|CommentHeader|..] == Interpolate(review);
  }

  /** The application identity used for both credential hops. */
  datatype AppCredentials = AppCredentials(appId: string, privateKey: string)

  /** The guard `!appId || !privateKey` after newline normalisation: both
      values must be set and non-empty. */
  function Credentials(cfg: Config): (r: Option<AppCredentials>)
    ensures r.Some? <==> (cfg.appId.Some? && cfg.appId.value != "" && cfg.privateKey.Some? && cfg.privateKey.value != "")
    ensures r.Some? ==> r.value.appId == cfg.appId.value && r.value.privateKey == Normalize(cfg.privateKey.value)
    ensures r.Some? ==> NoEscapedBreak(r.value.privateKey) && r.value.privateKey != ""
  {
    if cfg.appId.None? || cfg.appId.value == "" || cfg.privateKey.None? then None
    else
      var key := Normalize(cfg.privateKey.value);
      NormalizeEmpty(cfg.privateKey.value);
      NormalizeRemovesEscapes(cfg.privateKey.value);
      if key == "" then None else Some(AppCredentials(cfg.appId.value, key))
  }

  /** A step that needs the application credentials. */
  predicate IsCredentialStep(s: Step) {
    s.LookupInstallation? || s.ExchangeToken? || s.PostComment?
  }

  /** `postPRComment`: the credential guard, then installation lookup, token
      exchange and comment post, each only after the previous one succeeded.
      A failed hop ends the function quietly. */
  function PostPRComment(owner: string, repo: string, number: nat, review: Review, cfg: Config, o: Oracles)
    : (r: seq<Step>)
    ensures Credentials(cfg).None? ==> r == []
    ensures |r| <= 3
    ensures forall i | 0 <= i < |r| :: IsCredentialStep(r[i])
    ensures |r| > 0 ==> r[0] == LookupInstallation(cfg.appId.value, Credentials(cfg).value.privateKey, owner, repo)
    ensures |r| > 1 ==> o.lookup.Installation? && r[1].ExchangeToken? && r[1].installationId == o.lookup.id
    ensures |r| > 2 ==> o.exchange.Token? && r[2] == PostComment(o.exchange.token, owner, repo, number, FrameComment(review))
    ensures forall i | 0 <= i < |r| ::
              (r[i].LookupInstallation? <==> i == 0) && (r[i].ExchangeToken? <==> i == 1) && (r[i].PostComment? <==> i == 2)
    ensures Credentials(cfg).Some? && o.lookup.LookupFailed? ==> |r| == 1
    ensures Credentials(cfg).Some? && o.lookup.Installation? && o.exchange.ExchangeFailed? ==> |r| == 2
    ensures Credentials(cfg).Some? && o.lookup.Installation? && o.exchange.Token? ==> |r| == 3
  {
    match Credentials(cfg)
    case None => []
    case Some(cred) =>
      var lookup := LookupInstallation(cred.appId, cred.privateKey, owner, repo);
      match o.lookup
      case LookupFailed => [lookup]
      case Installation(id) =>
        var exchange := ExchangeToken(cred.appId, cred.privateKey, id);
        match o.exchange
        case ExchangeFailed => [lookup, exchange]
        case Token(token) => [lookup, exchange, PostComment(token, owner, repo, number, FrameComment(review))]
  }

  /** The prompt the event handler sends for a diff. */
  function PromptFor(ev: PullRequestEvent, diff: string): string {
    RenderPrompt(ev.pullRequest.title, ev.repository.fullName, ev.pullRequest.authorLogin, diff)
  }

  /** Lines 66-73 of the event handler: generate the review, then post it.
      A rejected review generation ends the handler before any credential step. */
  function ReviewAndPost(ev: PullRequestEvent, cfg: Config, o: Oracles): (r: seq<Step>)
    ensures GenerateReview(o.completion).ReviewRejected? ==> r == []
    ensures GenerateReview(o.completion).Resolved? ==>
              r == PostPRComment(ev.repository.ownerLogin, ev.repository.name, ev.pullRequest.number,
                                 GenerateReview(o.completion).review, cfg, o)
    ensures |r| <= 3
    ensures forall i | 0 <= i < |r| ::
              (r[i].LookupInstallation? <==> i == 0) && (r[i].ExchangeToken? <==> i == 1) && (r[i].PostComment? <==> i == 2)
  {
    match GenerateReview(o.completion)
    case ReviewRejected => []
    case Resolved(review) =>
      PostPRComment(ev.repository.ownerLogin, ev.repository.name, ev.pullRequest.number, review, cfg, o)
  }

  /** The `pull_request` event handler: action filter, diff fetch and guard,
      prompt rendering, one completion, then `postPRComment`. Every failure
      inside its `try` is caught, so it always completes. */
  function OnPullRequest(ev: PullRequestEvent, cfg: Config, o: Oracles): (r: seq<Step>)
    ensures r == [] <==> ev.action !in ReviewedActions
    ensures |r| > 1 <==> ev.action in ReviewedActions && o.diff.DiffText? && DiffReviewable(o.diff.text)
    ensures |r| <= 5
  {
    if ev.action !in ReviewedActions then []
    else
      var fetch := FetchDiff(ev.pullRequest.diffUrl);
      if o.diff.FetchFailed? || !DiffReviewable(o.diff.text) then [fetch]
      else [fetch, CompleteChat(ModelName(cfg), SystemInstruction, PromptFor(ev, o.diff.text), MaxTokens)]
           + ReviewAndPost(ev, cfg, o)
  }

  /** The event handler fetches the diff first, then calls the model with the
      rendered prompt, then runs the review-and-post steps. */
  lemma EventSteps(ev: PullRequestEvent, cfg: Config, o: Oracles)
    ensures var r := OnPullRequest(ev, cfg, o);
      (|r| > 0 ==> r[0] == FetchDiff(ev.pullRequest.diffUrl))
      && (|r| > 1 ==> r[1] == CompleteChat(ModelName(cfg), SystemInstruction, PromptFor(ev, o.diff.text), MaxTokens)
                      && r[2..] == ReviewAndPost(ev, cfg, o))
  {
  }

  /** Each kind of step occurs at most once in the event handler's trace, at a
      fixed position. */
  lemma EventOrder(ev: PullRequestEvent, cfg: Config, o: Oracles)
    ensures var r := OnPullRequest(ev, cfg, o);
      forall i | 0 <= i < |r| ::
        !r[i].ReadBody? && !r[i].VerifySignature? && (r[i].FetchDiff? <==> i == 0) && (r[i].CompleteChat? <==> i == 1)
        && (r[i].LookupInstallation? <==> i == 2) && (r[i].ExchangeToken? <==> i == 3) && (r[i].PostComment? <==> i == 4)
  {
    var r := OnPullRequest(ev, cfg, o);
    EventSteps(ev, cfg, o);
    if |r| > 1 {
      var rest := ReviewAndPost(ev, cfg, o);
      forall i | 2 <= i < |r|
        ensures r[i] == rest[i - 2]
      {
        assert r[2..][i - 2] == r[i];
      }
    }
  }

  /** The default-exported HTTP handler. */
  function Handle(req: Request, cfg: Config, o: Oracles): (out: Outcome)
    ensures out.response.status == 404 <==> req.httpMethod != "POST"
    ensures out.response.status == 500 <==> req.httpMethod == "POST" && o.verdict.Rejected?
    ensures out.response.status == 200 <==> req.httpMethod == "POST" && o.verdict.Verified?
    ensures out.trace == [] <==> req.httpMethod != "POST"
    ensures out.trace != [] ==> |out.trace| >= 2 && out.trace[..2] == [ReadBody, VerifySignature(req.deliveryId, req.eventName, req.signature, req.body)]
    ensures out.response.status != 200 ==> |out.trace| <= 2
  {
    if req.httpMethod != "POST" then Outcome(Response(404, "Not found"), [])
    else
      var received := [ReadBody, VerifySignature(req.deliveryId, req.eventName, req.signature, req.body)];
      match o.verdict
      case Rejected => Outcome(Response(500, "Webhook error"), received)
      case Verified(ev) =>
        var handled := if req.eventName == "pull_request" then OnPullRequest(ev, cfg, o) else [];
        Outcome(Response(200, "Webhook processed"), received + handled)
  }

  /** A verified `pull_request` delivery reads, verifies, then runs the event handler. */
  lemma HandleTrace(req: Request, cfg: Config, o: Oracles)
    requires req.httpMethod == "POST" && o.verdict.Verified? && req.eventName == "pull_request"
    ensures Handle(req, cfg, o).trace[2..] == OnPullRequest(o.verdict.payload, cfg, o)
  {
  }

  // ------------------------------------------------------------ properties

  predicate IsChat(s: Step) { s.CompleteChat? }
  predicate IsPost(s: Step) { s.PostComment? }

  /** The number of steps of a trace that satisfy `p`. */
  function Count(t: seq<Step>, p: Step -> bool): (n: nat)
    ensures n <= |t|
    ensures n == 0 <==> forall i | 0 <= i < |t| :: !p(t[i])
    decreases |t|
  {
    if |t| == 0 then 0
    else
      var rest := Count(t[1..], p);
      assert forall i | 1 <= i < |t| :: t[i] == t[1..][i - 1];
      (if p(t[0]) then 1 else 0) + rest
  }

  lemma {:induction false} CountConcat(a: seq<Step>, b: seq<Step>, p: Step -> bool)
    ensures Count(a + b, p) == Count(a, p) + Count(b, p)
    decreases |a|
  {
    if |a| == 0 {
      assert a + b == b;
    } else {
      assert (a + b)[1..] == a[1..] + b;
      CountConcat(a[1..], b, p);
    }
  }

  lemma CountOne(x: Step, p: Step -> bool)
    ensures Count([x], p) == if p(x) then 1 else 0
  {
    assert [x][1..] == [];
  }

  /** The delivery gets as far as the completion call. */
  predicate ReachesChat(req: Request, o: Oracles) {
    req.httpMethod == "POST" && o.verdict.Verified? && req.eventName == "pull_request"
    && o.verdict.payload.action in ReviewedActions
    && o.diff.DiffText? && DiffReviewable(o.diff.text)
  }

  /** The delivery gets as far as posting a comment. */
  predicate PostsComment(req: Request, cfg: Config, o: Oracles) {
    ReachesChat(req, o) && o.completion != Threw(true)
    && Credentials(cfg).Some? && o.lookup.Installation? && o.exchange.Token?
  }

  /** The HTTP status depends on the method and the verification outcome only:
      nothing the pipeline does after verification can change it. */
  lemma StatusIgnoresPipeline(req: Request, cfg1: Config, o1: Oracles, cfg2: Config, o2: Oracles)
    requires o1.verdict.Verified? == o2.verdict.Verified?
    ensures Handle(req, cfg1, o1).response == Handle(req, cfg2, o2).response
  {
  }

  /** The three responses, with their texts. */
  lemma Responses(req: Request, cfg: Config, o: Oracles)
    ensures req.httpMethod != "POST" ==> Handle(req, cfg, o) == Outcome(Response(404, "Not found"), [])
    ensures req.httpMethod == "POST" && o.verdict.Rejected? ==> Handle(req, cfg, o).response == Response(500, "Webhook error")
    ensures req.httpMethod == "POST" && o.verdict.Verified? ==> Handle(req, cfg, o).response == Response(200, "Webhook processed")
  {
  }

  /** Each kind of step occurs at most once, always at the same position, so
      the order is: read, verify, fetch, completion, lookup, exchange, post. */
  predicate InCallOrder(t: seq<Step>) {
    |t| <= 7 &&
    forall i | 0 <= i < |t| ::
      (t[i].ReadBody? <==> i == 0) && (t[i].VerifySignature? <==> i == 1) && (t[i].FetchDiff? <==> i == 2)
      && (t[i].CompleteChat? <==> i == 3) && (t[i].LookupInstallation? <==> i == 4)
      && (t[i].ExchangeToken? <==> i == 5) && (t[i].PostComment? <==> i == 6)
  }

  /** Every delivery's trace is in call order. */
  lemma CallOrder(req: Request, cfg: Config, o: Oracles)
    ensures InCallOrder(Handle(req, cfg, o).trace)
  {
    var t := Handle(req, cfg, o).trace;
    if req.httpMethod == "POST" && o.verdict.Verified? && req.eventName == "pull_request" {
      var h := OnPullRequest(o.verdict.payload, cfg, o);
      EventOrder(o.verdict.payload, cfg, o);
      assert t == [ReadBody, VerifySignature(req.deliveryId, req.eventName, req.signature, req.body)] + h;
      forall i | 2 <= i < |t|
        ensures t[i] == h[i - 2]
      {
      }
    }
  }

  /** A trace in call order holds one completion call exactly when it is
      longer than four steps. */
  lemma {:induction false} ChatsInOrder(t: seq<Step>)
    requires InCallOrder(t)
    ensures Count(t, IsChat) == if |t| >= 4 then 1 else 0
  {
    if |t| >= 4 {
      assert t == t[..3] + [t[3]] + t[4..];
      assert Count(t[..3], IsChat) == 0 by {
        forall i | 0 <= i < 3 ensures !IsChat(t[..3][i]) {
          assert t[..3][i] == t[i];
        }
      }
      assert Count(t[4..], IsChat) == 0 by {
        forall i | 0 <= i < |t[4..]| ensures !IsChat(t[4..][i]) {
          assert t[4..][i] == t[i + 4];
        }
      }
      CountOne(t[3], IsChat);
      CountConcat(t[..3], [t[3]], IsChat);
      CountConcat(t[..3] + [t[3]], t[4..], IsChat);
    }
  }

  /** A trace in call order holds one comment post exactly when it has all
      seven steps. */
  lemma {:induction false} PostsInOrder(t: seq<Step>)
    requires InCallOrder(t)
    ensures Count(t, IsPost) == if |t| == 7 then 1 else 0
  {
    if |t| == 7 {
      assert t == t[..6] + [t[6]];
      assert Count(t[..6], IsPost) == 0 by {
        forall i | 0 <= i < 6 ensures !IsPost(t[..6][i]) {
          assert t[..6][i] == t[i];
        }
      }
      CountOne(t[6], IsPost);
      CountConcat(t[..6], [t[6]], IsPost);
    }
  }

  /** How far a delivery gets, step by step: each outbound call happens exactly
      when every earlier call succeeded and the guard before it passed. */
  lemma StepsTaken(req: Request, cfg: Config, o: Oracles)
    ensures var t := Handle(req, cfg, o).trace;
      var fetches := req.httpMethod == "POST" && o.verdict.Verified? && req.eventName == "pull_request"
                     && o.verdict.payload.action in ReviewedActions;
      var credentialed := ReachesChat(req, o) && o.completion != Threw(true) && Credentials(cfg).Some?;
      (|t| >= 3 <==> fetches)
      && (|t| >= 4 <==> ReachesChat(req, o))
      && (|t| >= 5 <==> credentialed)
      && (|t| >= 6 <==> credentialed && o.lookup.Installation?)
      && (|t| == 7 <==> PostsComment(req, cfg, o))
  {
  }

  /** An action other than opened, synchronize or reopened ends the delivery
      right after verification. */
  lemma IgnoredAction(req: Request, cfg: Config, o: Oracles)
    requires req.httpMethod == "POST" && o.verdict.Verified?
    requires o.verdict.payload.action !in ReviewedActions
    ensures |Handle(req, cfg, o).trace| == 2
  {
  }

  /** A failed fetch, or an empty or short diff, ends the delivery after the
      fetch: no completion and no credential step. */
  lemma DiffGuard(req: Request, cfg: Config, o: Oracles)
    requires req.httpMethod == "POST" && o.verdict.Verified? && req.eventName == "pull_request"
    requires o.verdict.payload.action in ReviewedActions
    requires o.diff.FetchFailed? || !DiffReviewable(o.diff.text)
    ensures Handle(req, cfg, o).trace[2..] == [FetchDiff(o.verdict.payload.pullRequest.diffUrl)]
  {
  }

  /** A delivery makes exactly one completion call when it gets past the diff
      guard, and none otherwise. */
  lemma ChatCount(req: Request, cfg: Config, o: Oracles)
    ensures Count(Handle(req, cfg, o).trace, IsChat) == if ReachesChat(req, o) then 1 else 0
  {
    CallOrder(req, cfg, o);
    StepsTaken(req, cfg, o);
    ChatsInOrder(Handle(req, cfg, o).trace);
  }

  /** The completion call carries the configured model, the fixed system
      instruction, the rendered prompt and the token limit. */
  lemma ChatRequest(req: Request, cfg: Config, o: Oracles)
    requires ReachesChat(req, o)
    ensures var ev := o.verdict.payload;
      Handle(req, cfg, o).trace[3] == CompleteChat(
        ModelName(cfg), SystemInstruction,
        RenderPrompt(ev.pullRequest.title, ev.repository.fullName, ev.pullRequest.authorLogin, o.diff.text),
        1500)
  {
    EventSteps(o.verdict.payload, cfg, o);
  }

  /** With placeholder-free, `$`-free values the prompt sent holds the title,
      repository, author and diff verbatim. */
  lemma PromptCarriesValues(req: Request, cfg: Config, o: Oracles)
    requires ReachesChat(req, o)
    requires var pr := o.verdict.payload.pullRequest;
      Inert(pr.title) && Inert(o.verdict.payload.repository.fullName) && Inert(AuthorOrUnknown(pr.authorLogin))
      && '$' !in o.diff.text
    ensures var ev := o.verdict.payload;
      var p := Handle(req, cfg, o).trace[3].prompt;
      Contains(p, ev.pullRequest.title) && Contains(p, ev.repository.fullName)
      && Contains(p, AuthorOrUnknown(ev.pullRequest.authorLogin)) && Contains(p, o.diff.text)
  {
    var ev := o.verdict.payload;
    RenderContainsValues(ev.pullRequest.title, ev.repository.fullName, ev.pullRequest.authorLogin, o.diff.text);
  }

  /** The credential steps use the configured app id and the normalised key,
      the exchange uses the looked-up installation, and the post uses the
      exchanged token on the event's repository and pull request. */
  lemma CredentialHops(req: Request, cfg: Config, o: Oracles)
    requires o.verdict.Verified?
    ensures var t := Handle(req, cfg, o).trace;
      var ev := o.verdict.payload;
      var key := if cfg.privateKey.Some? then Normalize(cfg.privateKey.value) else "";
      (|t| > 4 ==> t[4] == LookupInstallation(cfg.appId.value, key, ev.repository.ownerLogin, ev.repository.name)
                   && NoEscapedBreak(key))
      && (|t| > 5 ==> t[5] == ExchangeToken(cfg.appId.value, key, o.lookup.id))
      && (|t| > 6 ==> t[6].bearer == o.exchange.token && t[6].issueNumber == ev.pullRequest.number
                      && t[6].commentOwner == ev.repository.ownerLogin && t[6].commentRepo == ev.repository.name)
  {
    var t := Handle(req, cfg, o).trace;
    if |t| > 4 {
      StepsTaken(req, cfg, o);
      var ev := o.verdict.payload;
      var h := OnPullRequest(ev, cfg, o);
      HandleTrace(req, cfg, o);
      EventSteps(ev, cfg, o);
      var p := PostPRComment(ev.repository.ownerLogin, ev.repository.name, ev.pullRequest.number,
                             GenerateReview(o.completion).review, cfg, o);
      assert h[2..] == p;
      forall i | 4 <= i < |t|
        ensures t[i] == p[i - 4]
      {
        assert t[i] == t[2..][i - 2] == h[i - 2] == h[2..][i - 4];
      }
    }
  }

  /** Without an app id, or without a non-empty private key, no credential step
      happens at all. */
  lemma MissingCredentials(req: Request, cfg: Config, o: Oracles)
    requires cfg.appId.None? || cfg.appId == Some("") || cfg.privateKey.None? || cfg.privateKey == Some("")
    ensures forall i | 0 <= i < |Handle(req, cfg, o).trace| :: !IsCredentialStep(Handle(req, cfg, o).trace[i])
  {
    CallOrder(req, cfg, o);
    StepsTaken(req, cfg, o);
    var t := Handle(req, cfg, o).trace;
    assert |t| <= 4;
  }

  /** The comment post of a delivery that gets that far: the exchanged token,
      the event's repository and pull request, and the framed review. */
  lemma PostedStep(req: Request, cfg: Config, o: Oracles)
    requires PostsComment(req, cfg, o)
    ensures var ev := o.verdict.payload;
      |Handle(req, cfg, o).trace| == 7
      && Handle(req, cfg, o).trace[6] == PostComment(o.exchange.token, ev.repository.ownerLogin, ev.repository.name,
                                                     ev.pullRequest.number, FrameComment(GenerateReview(o.completion).review))
  {
    var ev := o.verdict.payload;
    var h := OnPullRequest(ev, cfg, o);
    EventSteps(ev, cfg, o);
    assert h[4] == h[2..][2];
  }

  /** The posted comment is the header followed by the review text. */
  lemma PostedBody(req: Request, cfg: Config, o: Oracles)
    requires PostsComment(req, cfg, o)
    ensures var body := Handle(req, cfg, o).trace[6].commentBody;
      ReviewOfComment(body) == Some(Interpolate(GenerateReview(o.completion).review))
  {
    PostedStep(req, cfg, o);
    FrameCommentRoundTrip(GenerateReview(o.completion).review);
  }

  /** A failed completion posts the failure sentinel; a string reply is posted
      as it is. */
  lemma PostedReviewText(req: Request, cfg: Config, o: Oracles)
    requires PostsComment(req, cfg, o)
    ensures o.completion == Threw(false) ==> Handle(req, cfg, o).trace[6].commentBody == CommentHeader + FailureSentinel
    ensures o.completion.Replied? && o.completion.content.JString? ==>
              Handle(req, cfg, o).trace[6].commentBody == CommentHeader + o.completion.content.s
    ensures o.completion == Replied(JUndefined) ==> Handle(req, cfg, o).trace[6].commentBody == CommentHeader + "undefined"
  {
    PostedStep(req, cfg, o);
  }

  /** A non-string reply is posted as its JSON text, which holds no raw control
      character other than the line breaks of its layout. */
  lemma PostedJsonIsEscaped(req: Request, cfg: Config, o: Oracles)
    requires PostsComment(req, cfg, o)
    requires o.completion.Replied? && !o.completion.content.JString? && !o.completion.content.JUndefined?
    ensures var body := Handle(req, cfg, o).trace[6].commentBody;
      body == CommentHeader + Stringify(o.completion.content).value
      && LayoutOnly(body[|CommentHeader|..])
  {
    PostedStep(req, cfg, o);
    SerializeLayout(o.completion.content, "");
    var body := Handle(req, cfg, o).trace[6].commentBody;
    assert body[|CommentHeader|..] == Stringify(o.completion.content).value;
  }

  /** Delivering the same event twice posts two comments: nothing deduplicates
      on the delivery id. */
  lemma RedeliveryPostsTwice(req: Request, cfg: Config, o: Oracles)
    requires PostsComment(req, cfg, o)
    ensures Count(Handle(req, cfg, o).trace + Handle(req, cfg, o).trace, IsPost) == 2
  {
    var t := Handle(req, cfg, o).trace;
    CallOrder(req, cfg, o);
    StepsTaken(req, cfg, o);
    PostsInOrder(t);
    CountConcat(t, t, IsPost);
  }
}

=== FILE: wrappers.dfy ===
/** The optional-value datatype used throughout the model, standing for a
    JavaScript value that may be `undefined`. */
module Wrappers {

  datatype Option<+T> = None | Some(value: T) {

    /** Returns the value in Some, or the given default if None */
    function GetOr(default: T): T {
      match this
      case Some(v) => v
      case None => default
    }
  }
}
